=== FILE: README.md ===
# GOFF flag bytes and a slice of the Flang parse tree

This project models two parts of the LLVM project in Dafny and proves
properties of the model.

**GOFF bit-field packing** (`llvm/include/llvm/BinaryFormat/GOFF.h`). IBM's
z/OS Generalized Object File Format stores the flags of an external symbol
and its behavioral attributes as sub-byte fields. Bits are numbered from the
high-order end: bit 0 is the most significant bit. The model covers the
following.

- `Flags` is a byte with its `bits`/`set`/`get` encoder and decoder
  (modules `GoffBits` and `GoffFlags`).
- Each field is identified by a (bit index, length) pair. The packing clears
  the field's mask and ORs in the shifted value. The reading shifts down and
  masks.
- `GoffBitsRaw` holds the underlying facts stated on plain `bv8` values.
  They are written that way so that each one is decided by bit-blasting.
- `GoffEnums` holds the record-length constants and the `uint8_t`
  enumerations.
- `SymbolFlags` and `BehavioralAttributes` are the field tables that the two
  macros expand. Each table is a datatype of field names with their
  positions (modules `GoffSymbolFlags` and `GoffBehavioralAttributes`).

**Flang parse-tree nodes** (`flang/include/flang/Parser/parse-tree.h`).
These are the nodes for expressions, designators, the IF and DO constructs,
CALL, and a few declarations (modules `FlangExpr`, `FlangDecls` and
`FlangStmts`). The mapping to Dafny is as follows.

- A `std::variant` member `u` becomes a datatype with one constructor per
  alternative.
- A `std::tuple` member `t` becomes a constructor with one field per
  element, in tuple order.
- `common::Indirection` becomes plain recursion.
- The constructors that reorder, wrap or default fields become functions
  whose contracts state what they store.

`FlangOmpAtomic` models the bitmask constants of
`OpenMPAtomicConstruct::Analysis`.

Some definitions are representation glue and have no row of their own.
`GoffFlags.Flags.ToByte` and `GoffSymbolFlags.SymbolFlags.ToByte` are the
`operator uint8_t` conversions (GOFF.h:203 and GOFF.h:224).
`GoffFlags.Zero` is a default-constructed `Flags`, whose `Val` is 0
(GOFF.h:177 and GOFF.h:188). `GoffFlags.BoolCode` is the
`static_cast<uint8_t>` of a `bool` in `set` (GOFF.h:194).
`GoffBehavioralAttributes.Default` is a default-constructed
`BehavioralAttributes`: ten zero `Flags`. The rows for `Make`,
`BitZeroIsHighOrder`, the `SetFlag` members and `DefaultReadsZero` state
their contracts in terms of these definitions.

Integer widths are explicit. `uint8_t` is `bv8`, `uint16_t` is `bv16`, and
the `int` constants of `Analysis` are `bv32`. Where the C++ code computes in
`uint8_t`, the model computes in `bv8`.

## Model

| member | source | states |
|---|---|---|
| `GoffBits.Bits` | llvm/include/llvm/BinaryFormat/GOFF.h:179-185 | Packing `value` into a field: each bit of the field holds the bit of `value` of the same weight; the bits after the field (higher MSB-0 index) are always those of the old byte; when `value < 2^Length` every bit outside the field is kept |
| `GoffBits.PackedKeepsOutside` | llvm/include/llvm/BinaryFormat/GOFF.h:179-185 | A value that fits changes no bit outside `[BitIndex, BitIndex+Length)` |
| `GoffBits.ExtractedByBit` | llvm/include/llvm/BinaryFormat/GOFF.h:197-201 | Reading a field yields, bit for bit, the field's bits of the byte, moved down to the low-order end |
| `GoffBits.ExtractPacked` | llvm/include/llvm/BinaryFormat/GOFF.h:179-201 | Reading a field back after packing a value that fits gives that value |
| `GoffBits.PackTwice` | llvm/include/llvm/BinaryFormat/GOFF.h:179-185 | Packing the same field twice equals packing only the second value, provided the first one fit |
| `GoffFlags.Flags.Get` | llvm/include/llvm/BinaryFormat/GOFF.h:197-201 | `get` always returns a value below `2^Length`, made of the field's bits in order |
| `GoffFlags.Flags.Set` | llvm/include/llvm/BinaryFormat/GOFF.h:192-195 | `set` then `get` on the same field returns a value that fits; nothing outside the field changes; an oversize value still keeps the bits after the field |
| `GoffFlags.Flags.SetFlag` | llvm/include/llvm/BinaryFormat/GOFF.h:192-195 | `set<bool>` then `get<bool>` returns the flag, and no other bit changes |
| `GoffFlags.Flags.GetFlag` | llvm/include/llvm/BinaryFormat/GOFF.h:197-201 | `get<bool>` is `true` exactly when some bit of the field is set in the byte; for a one-bit field, exactly when that bit is set |
| `GoffFlags.Make` | llvm/include/llvm/BinaryFormat/GOFF.h:188-190 | `Flags(i, l, v)` is `set(i, l, v)` applied to a default (zero) `Flags`; a value that fits reads back, and every other bit is zero |
| `GoffFlags.SetTwice` | llvm/include/llvm/BinaryFormat/GOFF.h:192-195 | Setting a field twice leaves only the last value observable when the first one fit |
| `GoffFlags.OversizeValueSpills` | llvm/include/llvm/BinaryFormat/GOFF.h:179-185 | The value is not masked: writing 3 into the one-bit field at bit 7 also sets bit 6, while the field reads back 1 |
| `GoffFlags.ZeroLengthFlag` | llvm/include/llvm/BinaryFormat/GOFF.h:181-184 | A zero-length field: at bit index 0 the shifted value truncates to 0 and the byte is unchanged; at bit index 3 writing 1 sets bit 2, the bit just before the field |
| `GoffFlags.BitZeroIsHighOrder` | llvm/include/llvm/BinaryFormat/GOFF.h:173-190 | Bit 0 is the high-order bit: `Flags(0,1,1)` is `0x80`, `Flags(7,1,1)` is `0x01`, and a default `Flags` is 0 |
| `GoffEnums.RecordLengthsAgree` | llvm/include/llvm/BinaryFormat/GOFF.h:27-39 | `RecordContentLength` (80 - 3 in `uint8_t`) equals `PayloadLength`, 77; `MaxDataLength` is 32K - 1 |
| `GoffEnums.RecordTypeFromCode` | llvm/include/llvm/BinaryFormat/GOFF.h:44-51 | A byte decodes to an enumerator of `RecordType` exactly when it is that enumerator's declared value |
| `GoffEnums.ESDSymbolTypeFromCode` | llvm/include/llvm/BinaryFormat/GOFF.h:53-59 | A byte decodes to an enumerator of `ESDSymbolType` exactly when it is that enumerator's declared value |
| `GoffEnums.ESDNameSpaceIdFromCode` | llvm/include/llvm/BinaryFormat/GOFF.h:61-66 | A byte decodes to an enumerator of `ESDNameSpaceId` exactly when it is that enumerator's declared value |
| `GoffEnums.ESDReserveQwordsFromCode` | llvm/include/llvm/BinaryFormat/GOFF.h:68-73 | A byte decodes to an enumerator of `ESDReserveQwords` exactly when it is that enumerator's declared value |
| `GoffEnums.ESDAmodeFromCode` | llvm/include/llvm/BinaryFormat/GOFF.h:75-82 | A byte decodes to an enumerator of `ESDAmode` exactly when it is that enumerator's declared value |
| `GoffEnums.ESDRmodeFromCode` | llvm/include/llvm/BinaryFormat/GOFF.h:84-89 | A byte decodes to an enumerator of `ESDRmode` exactly when it is that enumerator's declared value |
| `GoffEnums.ESDTextStyleFromCode` | llvm/include/llvm/BinaryFormat/GOFF.h:91-95 | A byte decodes to an enumerator of `ESDTextStyle` exactly when it is that enumerator's declared value |
| `GoffEnums.ESDBindingAlgorithmFromCode` | llvm/include/llvm/BinaryFormat/GOFF.h:97-100 | A byte decodes to an enumerator of `ESDBindingAlgorithm` exactly when it is that enumerator's declared value |
| `GoffEnums.ESDTaskingBehaviorFromCode` | llvm/include/llvm/BinaryFormat/GOFF.h:102-107 | A byte decodes to an enumerator of `ESDTaskingBehavior` exactly when it is that enumerator's declared value |
| `GoffEnums.ESDExecutableFromCode` | llvm/include/llvm/BinaryFormat/GOFF.h:109-113 | A byte decodes to an enumerator of `ESDExecutable` exactly when it is that enumerator's declared value |
| `GoffEnums.ESDDuplicateSymbolSeverityFromCode` | llvm/include/llvm/BinaryFormat/GOFF.h:115-120 | A byte decodes to an enumerator of `ESDDuplicateSymbolSeverity` exactly when it is that enumerator's declared value |
| `GoffEnums.ESDBindingStrengthFromCode` | llvm/include/llvm/BinaryFormat/GOFF.h:122-125 | A byte decodes to an enumerator of `ESDBindingStrength` exactly when it is that enumerator's declared value |
| `GoffEnums.ESDLoadingBehaviorFromCode` | llvm/include/llvm/BinaryFormat/GOFF.h:127-132 | A byte decodes to an enumerator of `ESDLoadingBehavior` exactly when it is that enumerator's declared value |
| `GoffEnums.ESDBindingScopeFromCode` | llvm/include/llvm/BinaryFormat/GOFF.h:134-140 | A byte decodes to an enumerator of `ESDBindingScope` exactly when it is that enumerator's declared value |
| `GoffEnums.ESDLinkageTypeFromCode` | llvm/include/llvm/BinaryFormat/GOFF.h:142-142 | A byte decodes to an enumerator of `ESDLinkageType` exactly when it is that enumerator's declared value |
| `GoffEnums.ESDAlignmentFromCode` | llvm/include/llvm/BinaryFormat/GOFF.h:144-158 | A byte decodes to an enumerator of `ESDAlignment` exactly when it is that enumerator's declared value |
| `GoffEnums.ENDEntryPointRequestFromCode` | llvm/include/llvm/BinaryFormat/GOFF.h:160-165 | A byte decodes to an enumerator of `ENDEntryPointRequest` exactly when it is that enumerator's declared value |
| `GoffEnums.SubsectionKindFromCode` | llvm/include/llvm/BinaryFormat/GOFF.h:168-171 | A byte decodes to an enumerator of `SubsectionKind` exactly when it is that enumerator's declared value |
| `GoffSymbolFlags.SymbolField.Field` | llvm/include/llvm/BinaryFormat/GOFF.h:216-220 | Every `SymbolFlags` field is non-empty and lies inside the byte |
| `GoffSymbolFlags.SymbolLayout` | llvm/include/llvm/BinaryFormat/GOFF.h:216-220 | The five fields at bits 0, 1, 2, 3 and 5-7 are pairwise disjoint, and none covers bit 4 |
| `GoffSymbolFlags.SymbolFlags.Get` | llvm/include/llvm/BinaryFormat/GOFF.h:212-214 | A field's reading fits its width |
| `GoffSymbolFlags.SymbolFlags.Set` | llvm/include/llvm/BinaryFormat/GOFF.h:212-220 | A value that fits is read back, every other field reads as before, and bit 4 is unchanged |
| `GoffSymbolFlags.SetKeepsOtherField` | llvm/include/llvm/BinaryFormat/GOFF.h:216-220 | Setting one field leaves the reading of every other field unchanged |
| `GoffSymbolFlags.SymbolFlags.SetFlag` | llvm/include/llvm/BinaryFormat/GOFF.h:213-220 | The `bool` setters are read back by their getters, disturb no other field, and leave bit 4 (owned by no field) as it was |
| `GoffSymbolFlags.SymbolFlags.GetFlag` | llvm/include/llvm/BinaryFormat/GOFF.h:214-219 | `getFillBytePresence`, `getMangled`, `getRenameable` and `getRemovableClass` are `true` exactly when their MSB-0 bit 0, 1, 2 or 3 of the byte is set |
| `GoffSymbolFlags.SymbolFlags.SetReservedQwords` | llvm/include/llvm/BinaryFormat/GOFF.h:220-220 | `setReservedQwords(q)` then `getReservedQwords()` gives `q`, the four flags are unchanged, and bit 4 keeps its value |
| `GoffSymbolFlags.SymbolFlags.GetReservedQwords` | llvm/include/llvm/BinaryFormat/GOFF.h:214-220 | The three bits name an `ESDReserveQwords` enumerator exactly when they hold 0 to 3, and then it is the enumerator whose value they hold |
| `GoffSymbolFlags.OversizeQwordsReachBit4` | llvm/include/llvm/BinaryFormat/GOFF.h:212-220 | An unmasked reserved-quadword count of 8 sets bit 4, the bit no field owns |
| `GoffBehavioralAttributes.AttrField.Index` | llvm/include/llvm/BinaryFormat/GOFF.h:237-253 | Every field's byte index is inside `Attr[10]` |
| `GoffBehavioralAttributes.AttrField.Field` | llvm/include/llvm/BinaryFormat/GOFF.h:237-253 | Every field is non-empty and lies inside its byte |
| `GoffBehavioralAttributes.AttrLayout` | llvm/include/llvm/BinaryFormat/GOFF.h:237-253 | Fields sharing a byte (bytes 2, 3, 4, 5 and 6) are disjoint, and no field lies in bytes 7 to 9 |
| `GoffBehavioralAttributes.BehavioralAttributes.Get` | llvm/include/llvm/BinaryFormat/GOFF.h:233-235 | A field's reading fits its width |
| `GoffBehavioralAttributes.BehavioralAttributes.Set` | llvm/include/llvm/BinaryFormat/GOFF.h:233-235 | A setter changes only its own byte `Attr[ATTRIDX]`; a value that fits is read back, every other field reads as before, and every bit of the byte outside the field keeps its value, including the bits that belong to no field |
| `GoffBehavioralAttributes.BehavioralAttributes.SetFlag` | llvm/include/llvm/BinaryFormat/GOFF.h:243-250 | The `bool` setters (ReadOnly, COMMON, IndirectReference) are read back, change no other byte, disturb no other field, and keep every other bit of their own byte |
| `GoffBehavioralAttributes.BehavioralAttributes.GetFlag` | llvm/include/llvm/BinaryFormat/GOFF.h:235-250 | `getReadOnly`, `getCOMMON` and `getIndirectReference` are `true` exactly when their one bit of `Attr[ATTRIDX]` is set |
| `GoffBehavioralAttributes.SetKeepsOtherField` | llvm/include/llvm/BinaryFormat/GOFF.h:237-253 | Setting a field leaves the other fields of the same byte unchanged |
| `GoffBehavioralAttributes.TrailingBytesNeverWritten` | llvm/include/llvm/BinaryFormat/GOFF.h:231-253 | No setter writes bytes 7 to 9 |
| `GoffBehavioralAttributes.DefaultReadsZero` | llvm/include/llvm/BinaryFormat/GOFF.h:177-188 | In default-constructed attributes (ten zero `Flags`), every field reads 0 and every `bool` field reads `false` |
| `GoffBehavioralAttributes.AcceptedFits` | llvm/include/llvm/BinaryFormat/GOFF.h:75-158 | Every enumerator (and every `bool`) fits the width of the field of its type, e.g. `ESDAlignment` up to 12 in 5 bits |
| `GoffBehavioralAttributes.AcceptedValuesFit` | llvm/include/llvm/BinaryFormat/GOFF.h:233-253 | So every typed setter is read back by its getter and leaves every other field unchanged |
| `FlangExpr.Alternative` | flang/include/flang/Parser/parse-tree.h:1797-1802 | `Expr::u` has 31 alternatives |
| `FlangExpr.UnaryAt` | flang/include/flang/Parser/parse-tree.h:1704-1716 | The positions 6-9 of `Expr::u` hold exactly the four `IntrinsicUnary` structs, each at one position |
| `FlangExpr.BinaryAt` | flang/include/flang/Parser/parse-tree.h:1724-1785 | The positions 12-27 and 29 of `Expr::u` hold exactly the seventeen `IntrinsicBinary` structs, each at one position |
| `FlangExpr.AlternativeIsKind` | flang/include/flang/Parser/parse-tree.h:1701-1802 | Two nodes hold the same alternative of `Expr::u` exactly when they have the same constructor and the same intrinsic operator |
| `FlangExpr.NodeAt` | flang/include/flang/Parser/parse-tree.h:1797-1802 | For each of the 31 positions of `Expr::u`, a node whose `index()` is that position |
| `FlangExpr.EveryAlternativeOccurs` | flang/include/flang/Parser/parse-tree.h:1797-1802 | Each of the 31 positions of `Expr::u` is `index()` of some node, held by an intrinsic operator or by one of the ten other alternatives |
| `FlangExpr.Operands` | flang/include/flang/Parser/parse-tree.h:1704-1785 | Unary and defined-unary nodes hold one sub-expression, binary and defined-binary nodes two, each structurally smaller: the operand, or the left then the right sub-expression |
| `FlangExpr.Nest` | flang/include/flang/Parser/parse-tree.h:1704-1708 | Wrapping in `k` parentheses gives a `Parentheses` node for `k > 0` and the node itself for `k == 0` |
| `FlangExpr.Descents` | flang/include/flang/Parser/parse-tree.h:1704-1785 | A visitor that follows first operands takes no step exactly when the node has no operands |
| `FlangExpr.Leaf` | flang/include/flang/Parser/parse-tree.h:1704-1785 | That visitor stops at a node without operands |
| `FlangExpr.NestDepth` | flang/include/flang/Parser/parse-tree.h:1704-1708 | A leaf wrapped in `k` parentheses is reached after exactly `k` descents and is the wrapped leaf, by induction on `k` |
| `FlangExpr.FourParentheses` | flang/include/flang/Parser/parse-tree.h:1704-1708 | `((((1))))` is four nested `Parentheses` nodes around one integer literal, reached after four descents |
| `FlangExpr.ArgOfExpr` | flang/include/flang/Parser/parse-tree.h:3247-3247 | `ActualArg(Expr)` yields the first (`Indirection<Expr>`) alternative holding that expression |
| `FlangExpr.ArgOfExprInverse` | flang/include/flang/Parser/parse-tree.h:3243-3250 | An argument holds expression `x` in its first alternative exactly when it is `ActualArg(x)` |
| `FlangExpr.Parts` | flang/include/flang/Parser/parse-tree.h:1806-1826 | A data-ref reads as a non-empty sequence of part-refs |
| `FlangExpr.PartsOfDataRef` | flang/include/flang/Parser/parse-tree.h:1806-1826 | The first part-ref names the base object, and there is one part per `%` link plus one |
| `FlangExpr.PartsExample` | flang/include/flang/Parser/parse-tree.h:1806-1817 | `x % y(1)` reads as the part-refs `x` and `y(1)` |
| `FlangDecls.CharSelectorOfLength` | flang/include/flang/Parser/parse-tree.h:689-690 | `CharSelector(l, k)` is the `LengthAndKind` alternative with the length present |
| `FlangDecls.CharSelectorOfKind` | flang/include/flang/Parser/parse-tree.h:691-692 | `CharSelector(k, l)` keeps the optional length as given |
| `FlangDecls.CharSelectorOrders` | flang/include/flang/Parser/parse-tree.h:680-694 | Both orders of length and kind build the same node; the kind-first constructor builds every `LengthAndKind` selector |
| `FlangDecls.ComponentDeclLengthFirst` | flang/include/flang/Parser/parse-tree.h:1042-1047 | The char-length, passed second, lands in the fourth tuple slot, present; the other fields keep their canonical order |
| `FlangDecls.ComponentDeclLengthFirstInverse` | flang/include/flang/Parser/parse-tree.h:1040-1052 | Every component-decl with a char-length is built by that constructor from its own fields, and by no other arguments |
| `FlangDecls.EntityDeclLengthFirst` | flang/include/flang/Parser/parse-tree.h:1406-1409 | The same reordering for `EntityDecl`: canonical order, char-length present |
| `FlangDecls.EntityDeclLengthFirstInverse` | flang/include/flang/Parser/parse-tree.h:1404-1414 | Every entity-decl with a char-length is built by that constructor from its own fields, and by no other arguments |
| `FlangDecls.ImportOfKind` | flang/include/flang/Parser/parse-tree.h:621-621 | `ImportStmt(kind)` has that kind and an empty name list |
| `FlangDecls.ImportOfNames` | flang/include/flang/Parser/parse-tree.h:622-624 | `ImportStmt(names)` has kind `Default` and those names |
| `FlangDecls.ImportConstructorsCover` | flang/include/flang/Parser/parse-tree.h:619-626 | A statement has no names exactly when the kind constructor builds it, and has the default kind exactly when the names constructor builds it |
| `FlangDecls.SuffixOfBinding` | flang/include/flang/Parser/parse-tree.h:3138-3139 | `Suffix(binding, resultName)` always has the binding present |
| `FlangDecls.SuffixOfResult` | flang/include/flang/Parser/parse-tree.h:3140-3141 | `Suffix(resultName, binding)` always has the result name present |
| `FlangDecls.SuffixOrders` | flang/include/flang/Parser/parse-tree.h:3136-3144 | `BIND(C) RESULT(r)` and `RESULT(r) BIND(C)` build the same suffix; the two constructors together build every suffix with a binding or a result name |
| `FlangStmts.CallStmtOf` | flang/include/flang/Parser/parse-tree.h:3286-3288 | `CallStmt(pd, ch, args)` holds `Call(pd, args)` (the node a function reference holds) and `ch` as its chevrons |
| `FlangStmts.CallStmtOfInverse` | flang/include/flang/Parser/parse-tree.h:3277-3294 | Every CALL statement is built by the constructor from its own parts, and from no others |
| `FlangStmts.Branches` | flang/include/flang/Parser/parse-tree.h:2370-2386 | The guarded blocks of an IF construct in order: the IF block under its condition, then each ELSE IF block under its own |
| `FlangStmts.ElseIfBranches` | flang/include/flang/Parser/parse-tree.h:2373-2377 | One guarded block per `ElseIfBlock`, in list order |
| `FlangStmts.Blocks` | flang/include/flang/Parser/parse-tree.h:2370-2386 | The blocks of an IF construct in source order: the THEN block, each ELSE IF block, then the ELSE block when there is one |
| `FlangStmts.TwoElseIfs` | flang/include/flang/Parser/parse-tree.h:2370-2386 | An IF with two ELSE IFs and an ELSE has three conditions in order and four blocks |
| `FlangStmts.OmpLoopOfBegin` | flang/include/flang/Parser/parse-tree.h:5161-5162 | `OpenMPLoopConstruct(begin)` stores the begin directive with the nested loop and end directive absent |
| `FlangStmts.OmpLoopOfBeginExactly` | flang/include/flang/Parser/parse-tree.h:5159-5166 | A construct comes from that constructor exactly when it has neither loop nor end directive |
| `FlangStmts.AccLoopOfBegin` | flang/include/flang/Parser/parse-tree.h:5448-5449 | `OpenACCLoopConstruct(begin)`: begin stored, loop and `END LOOP` absent |
| `FlangStmts.AccLoopOfBeginExactly` | flang/include/flang/Parser/parse-tree.h:5446-5453 | A construct comes from that constructor exactly when it has neither loop nor end |
| `FlangStmts.AccCombinedOfBegin` | flang/include/flang/Parser/parse-tree.h:5430-5431 | `OpenACCCombinedConstruct(begin)`: begin stored, loop and end directive absent |
| `FlangStmts.AccCombinedOfBeginExactly` | flang/include/flang/Parser/parse-tree.h:5427-5435 | A construct comes from that constructor exactly when it has neither loop nor end directive |
| `FlangOmpAtomic.AnalysisMasks` | flang/include/flang/Parser/parse-tree.h:5018-5026 | `Update == Read | Write`, `Action` covers None/Read/Write/Update, `Condition == IfTrue | IfFalse`, `Action & Condition == 0` |
| `FlangOmpAtomic.Combine` | flang/include/flang/Parser/parse-tree.h:5018-5026 | An action combined with a condition can be split back into both |
| `FlangOmpAtomic.ActionOf` | flang/include/flang/Parser/parse-tree.h:5023-5023 | Masking with `Action` always yields one of the four actions |
| `FlangOmpAtomic.ConditionOf` | flang/include/flang/Parser/parse-tree.h:5026-5026 | Masking with `Condition` always yields no condition, IfTrue, IfFalse or both |
| `FlangOmpAtomic.CombineSplit` | flang/include/flang/Parser/parse-tree.h:5018-5026 | A `what` with no bits outside the two masks is its action combined with its condition |

## Left out

- `Flags::set` takes `uint8_t` field positions. The model requires `Length <= 8` and `BitIndex + Length <= 8`. Outside that range the C++ shift amount wraps or exceeds the width, and the behaviour is not meaningful.
- GoffFlags.Flags.Set: the round trip and the full frame hold only for a value below `2^Length`. The source does not mask the value, so an oversize value spills into the bits before the field. The model keeps this as written, and `OversizeValueSpills` exhibits it. The bits after the field are kept for every value.
- GoffFlags.Flags.SetFlag: requires a field of at least one bit. For a zero-length field, `get<bool>` always reads `false`, so a `true` is not read back. At bit index 1 to 8, C++ `set<bool>` sets the bit just before the field. At bit index 0 the shifted value truncates to 0 and nothing is written (`ZeroLengthFlag`). Every `bool` field in the two tables is one bit wide.
- GoffSymbolFlags.SymbolFlags.Set: bit 4 is kept only when the value fits. An oversize `ReservedQwords` value reaches it (`OversizeQwordsReachBit4`).
- The frame property "another field reads as before" is proved for the named fields of the two tables, not for two arbitrary (bit index, length) pairs. The per-bit frame (`Bits`, `PackedKeepsOutside`) holds for every field.
- The typed getters of the enum fields return the raw field value. A value that names no enumerator is a legal `static_cast` result in C++. `getReservedQwords` decodes it to an optional enumerator instead. The typed setters are the generic `Set` applied to an enumerator's `Code()`, which `AcceptedValuesFit` covers.
- `PTVPrefix`, the prefix byte that starts every record (GOFF.h:42), is not modelled. It belongs to record framing, not to the flag and attribute encoding this model covers.
- `ImportKind` lives in a common header that is not part of this model. Its four values come from the grammar comment of R867.
- `Flags` is a mutable class in C++. The model treats it as a value, and `set` returns the updated byte.
- The C++ type-system guarantees of the parse tree are left out: move-only nodes, deleted copies and the `NoLvalue` constraints.
- Source locations and semantic caches are left out: `CharBlock source`, `Name::symbol`, `typedExpr`, `typedAssignment` and `typedCall`. They point into objects built after parsing.
- Some functions are declared in the header but defined elsewhere, so their bodies are not visible:
  - `DataRef(std::list<PartRef>)`;
  - `Expr(Designator &&)` and `Expr(FunctionReference &&)`;
  - `ImportStmt(kind, names)`;
  - `ArrayElement::ConvertToSubstring` and `FunctionReference::ConvertToArrayElementRef`;
  - `Designator::EndsInBareName` and the `DoConstruct::IsDo*` queries.

  `Parts` reads a data-ref in the other direction, following the R911 grammar comment.
- OpenMP and OpenACC clauses and directive kinds are generated from `.inc` files that are not part of this model. Directives are kept as a name with a list of clause names.
- Node kinds outside the slice are left out, since the same three shapes repeat throughout the header. These include:
  - literal kind parameters;
  - the shapes of array and structure constructors;
  - most action statements, which are kept by keyword;
  - the other executable constructs.
- The assumed-shape, assumed-size, implied-shape and assumed-rank forms of `ArraySpec` are not distinguished from the explicit and deferred forms.
- A `Label` must lie in `1..99999`, but this is checked after parsing and is not a construction invariant. `Label` is an unbounded `nat`.
- `std::uint64_t` digit strings in `CharLength` are unbounded `nat`.
- The lldb array test and the clang-tidy `QualifiedAutoCheck` header are not part of this model. The first drives a debugger process. The second is a declaration-only wrapper over the AST matcher library.

=== FILE: flang_decls.dfy ===
/**
 * Declaration nodes of the Flang parse tree whose constructors do more than
 * move their arguments into place: they reorder the fields of a tuple, wrap
 * an argument in `std::optional`, or fill a field with its default.
 */
module FlangDecls {
  import opened Wrappers
  import opened FlangExpr

  /** R701 type-param-value -> scalar-int-expr | * | :. */
  datatype TypeParamValue = TypeParamExpr(value: Expr) | Star | Deferred

  /** R723 char-length -> ( type-param-value ) | digit-string; the digit
      string is a `std::uint64_t`. */
  datatype CharLength = LengthValue(value: TypeParamValue) | LengthDigits(digits: nat)

  /** R722 length-selector -> ( [LEN =] type-param-value ) | * char-length [,]. */
  datatype LengthSelector = SelectorValue(value: TypeParamValue) | SelectorCharLength(charLength: CharLength)

  /** `CharSelector::LengthAndKind`. */
  datatype LengthAndKind = LengthAndKind(length: Option<TypeParamValue>, kind: Expr)

  /** R721 char-selector. */
  datatype CharSelector = LengthOnly(selector: LengthSelector) | WithKind(lengthAndKind: LengthAndKind)

  /** `CharSelector(TypeParamValue &&, ScalarIntConstantExpr &&)`: the
      length, which the syntax requires here, is stored present. */
  function CharSelectorOfLength(l: TypeParamValue, k: Expr): (r: CharSelector)
    ensures r.WithKind? && r.lengthAndKind.length == Some(l) && r.lengthAndKind.kind == k
  {
    WithKind(LengthAndKind(Some(l), k))
  }

  /** `CharSelector(ScalarIntConstantExpr &&, std::optional<TypeParamValue> &&)`:
      kind first, and the length kept absent or present as given. */
  function CharSelectorOfKind(k: Expr, l: Option<TypeParamValue>): (r: CharSelector)
    ensures r.WithKind? && r.lengthAndKind.length == l && r.lengthAndKind.kind == k
  {
    WithKind(LengthAndKind(l, k))
  }

  /** The two orders of writing length and kind build the same node, and the
      kind-first constructor reaches every `LengthAndKind` selector. */
  lemma CharSelectorOrders(l: TypeParamValue, k: Expr, s: CharSelector)
    ensures CharSelectorOfLength(l, k) == CharSelectorOfKind(k, Some(l))
    ensures s.WithKind? ==> s == CharSelectorOfKind(s.lengthAndKind.kind, s.lengthAndKind.length)
  {}

  /** R816 explicit-shape-spec -> [lower-bound :] upper-bound. */
  datatype ExplicitShapeSpec = ExplicitShapeSpec(lower: Option<Expr>, upper: Expr)

  /** R815 array-spec and R740 component-array-spec: explicit bounds, or a
      count of deferred (`:`) dimensions. The assumed-shape, assumed-size,
      implied-shape and assumed-rank forms are not distinguished. */
  datatype ArraySpec = ExplicitShape(bounds: seq<ExplicitShapeSpec>) | DeferredShape(rank: nat)

  /** R809 coarray-spec -> deferred-coshape-spec-list | explicit-coshape-spec. */
  datatype CoarraySpec = DeferredCoshape(corank: nat) | ExplicitCoshape(bounds: seq<ExplicitShapeSpec>, lastLower: Option<Expr>)

  /** R805 initialization -> = constant-expr | => null-init | => initial-data-target,
      and the `/ data-stmt-value-list /` extension. */
  datatype Initialization =
    | ConstantInit(value: Expr)
    | NullInit(nullRef: Expr)
    | DataTarget(target: Designator)
    | DataValues(values: seq<Expr>)

  /** R739 component-decl, fields in the order of its tuple. */
  datatype ComponentDecl = ComponentDecl(
    name: Name,
    arraySpec: Option<ArraySpec>,
    coarraySpec: Option<CoarraySpec>,
    charLength: Option<CharLength>,
    init: Option<Initialization>)

  /**
   * The `ComponentDecl` constructor for `name *char-length (...)`, whose
   * arguments come in source order with the char-length second: the tuple
   * keeps the canonical order and holds the char-length, present.
   */
  function ComponentDeclLengthFirst(name: Name, length: CharLength, aSpec: Option<ArraySpec>,
                                    coaSpec: Option<CoarraySpec>, init: Option<Initialization>): (r: ComponentDecl)
    ensures r.name == name && r.arraySpec == aSpec && r.coarraySpec == coaSpec
    ensures r.charLength == Some(length) && r.init == init
  {
    ComponentDecl(name, aSpec, coaSpec, Some(length), init)
  }

  /** Every declaration with a char-length is built by that constructor from
      its own fields, and by no other arguments. */
  lemma ComponentDeclLengthFirstInverse(d: ComponentDecl, name: Name, length: CharLength, aSpec: Option<ArraySpec>,
                                        coaSpec: Option<CoarraySpec>, init: Option<Initialization>)
    ensures d.charLength.Some? ==>
              d == ComponentDeclLengthFirst(d.name, d.charLength.value, d.arraySpec, d.coarraySpec, d.init)
    ensures d == ComponentDeclLengthFirst(name, length, aSpec, coaSpec, init) ==>
              d.name == name && d.charLength == Some(length) && d.arraySpec == aSpec
              && d.coarraySpec == coaSpec && d.init == init
  {}

  /** R803 entity-decl, fields in the order of its tuple. */
  datatype EntityDecl = EntityDecl(
    name: Name,
    arraySpec: Option<ArraySpec>,
    coarraySpec: Option<CoarraySpec>,
    charLength: Option<CharLength>,
    init: Option<Initialization>)

  /** The `EntityDecl` constructor for the extension
      `object-name *char-length (...)`: canonical order, char-length present. */
  function EntityDeclLengthFirst(name: Name, length: CharLength, aSpec: Option<ArraySpec>,
                                 coaSpec: Option<CoarraySpec>, init: Option<Initialization>): (r: EntityDecl)
    ensures r.name == name && r.arraySpec == aSpec && r.coarraySpec == coaSpec
    ensures r.charLength == Some(length) && r.init == init
  {
    EntityDecl(name, aSpec, coaSpec, Some(length), init)
  }

  /** Every entity with a char-length is built by that constructor from its
      own fields, and by no other arguments. */
  lemma EntityDeclLengthFirstInverse(d: EntityDecl, name: Name, length: CharLength, aSpec: Option<ArraySpec>,
                                     coaSpec: Option<CoarraySpec>, init: Option<Initialization>)
    ensures d.charLength.Some? ==>
              d == EntityDeclLengthFirst(d.name, d.charLength.value, d.arraySpec, d.coarraySpec, d.init)
    ensures d == EntityDeclLengthFirst(name, length, aSpec, coaSpec, init) ==>
              d.name == name && d.charLength == Some(length) && d.arraySpec == aSpec
              && d.coarraySpec == coaSpec && d.init == init
  {}

  /** `common::ImportKind`: the four forms of R867 import-stmt. */
  datatype ImportKind = ImportDefault | ImportOnly | ImportNone | ImportAll

  /** R867 import-stmt. */
  datatype ImportStmt = ImportStmt(kind: ImportKind, names: seq<Name>)

  /** `ImportStmt(ImportKind &&)`: `IMPORT, NONE` or `IMPORT, ALL`, no names. */
  function ImportOfKind(k: ImportKind): (r: ImportStmt)
    ensures r.kind == k && r.names == []
  {
    ImportStmt(k, [])
  }

  /** `ImportStmt(std::list<Name> &&)`: the kind keeps its default. */
  function ImportOfNames(names: seq<Name>): (r: ImportStmt)
    ensures r.kind == ImportDefault && r.names == names
  {
    ImportStmt(ImportDefault, names)
  }

  /** A statement with no names comes from the kind constructor, one of the
      default kind from the names constructor; a bare `IMPORT` comes from
      both. */
  lemma ImportConstructorsCover(s: ImportStmt)
    ensures s.names == [] <==> s == ImportOfKind(s.kind)
    ensures s.kind == ImportDefault <==> s == ImportOfNames(s.names)
    ensures ImportOfKind(ImportDefault) == ImportOfNames([])
  {}

  /** R808 language-binding-spec -> BIND ( C [, NAME = ...] [, CDEFINED] ). */
  datatype LanguageBindingSpec = LanguageBindingSpec(bindName: Option<Expr>, cDefined: bool)

  /** R1532 suffix. */
  datatype Suffix = Suffix(binding: Option<LanguageBindingSpec>, resultName: Option<Name>)

  /** `Suffix(LanguageBindingSpec &&, std::optional<Name> &&)`:
      `BIND(C) [RESULT(r)]`, the binding present. */
  function SuffixOfBinding(lbs: LanguageBindingSpec, rn: Option<Name>): (r: Suffix)
    ensures r.binding == Some(lbs) && r.resultName == rn
  {
    Suffix(Some(lbs), rn)
  }

  /** `Suffix(Name &&, std::optional<LanguageBindingSpec> &&)`:
      `RESULT(r) [BIND(C)]`, the result name present. */
  function SuffixOfResult(rn: Name, lbs: Option<LanguageBindingSpec>): (r: Suffix)
    ensures r.resultName == Some(rn) && r.binding == lbs
  {
    Suffix(lbs, Some(rn))
  }

  /** Writing `BIND(C)` before or after `RESULT(r)` gives the same suffix,
      and the two constructors between them build every suffix that has a
      binding or a result name. */
  lemma SuffixOrders(lbs: LanguageBindingSpec, rn: Name, s: Suffix)
    ensures SuffixOfBinding(lbs, Some(rn)) == SuffixOfResult(rn, Some(lbs))
    ensures s.binding.Some? ==> s == SuffixOfBinding(s.binding.value, s.resultName)
    ensures s.resultName.Some? ==> s == SuffixOfResult(s.resultName.value, s.binding)
  {}
}

=== FILE: flang_expr.dfy ===
/**
 * The Fortran expression and designator nodes of the Flang parse tree
 * (R601-R608, R901-R926, R1001-R1022, R1520-R1525). A `std::variant` member
 * `u` becomes a datatype with one constructor per alternative, a `std::tuple`
 * member `t` a constructor with one field per element, a wrapper `v` its
 * contents, and `common::Indirection<T>` plain recursion. The `Scalar`,
 * `Integer`, `Logical` and `Constant` wrappers only constrain the expression
 * they hold and are left transparent.
 */
module FlangExpr {
  import opened Wrappers

  /** R603 name; only its spelling is kept. */
  datatype Name = Name(id: string)

  /** R1003/R1023: a defined operator, stored with its dots (`.FOO.`). */
  datatype DefinedOpName = DefinedOpName(name: Name)

  /** R605 literal-constant; kind parameters and exact spellings aside. */
  datatype LiteralConstant =
    | Hollerith(text: string)
    | IntLiteral(digits: string)
    | RealLiteral(text: string)
    | ComplexLiteral(re: string, im: string)
    | BozLiteral(text: string)
    | CharLiteral(text: string)
    | LogicalLiteral(value: bool)
    | UnsignedLiteral(digits: string)

  /** The structs deriving from `Expr::IntrinsicUnary`. */
  datatype UnaryOp = Parentheses | UnaryPlus | Negate | Not

  /** The structs deriving from `Expr::IntrinsicBinary`. */
  datatype BinaryOp =
    BinPower | BinMultiply | BinDivide | BinAdd | BinSubtract | BinConcat
    | BinLT | BinLE | BinEQ | BinNE | BinGE | BinGT | BinAND | BinOR | BinEQV | BinNEQV
    | ComplexConstructor

  /**
   * R1001-R1022 expr. The 31 alternatives of `Expr::u`; the operator
   * alternatives share the shape of their base struct and carry the
   * operator as a tag.
   */
  datatype Expr =
    | CharLiteralSubstring(literal: string, range: SubstringRange)
    | Literal(constant: LiteralConstant)
    | DesignatorExpr(designator: Designator)
    | ArrayCons(values: seq<Expr>)
    | StructureCons(typeName: Name, components: seq<ComponentSpec>)
    | FunctionRef(reference: FunctionReference)
    | IntrinsicUnary(uop: UnaryOp, operand: Expr)
    | PercentLoc(variable: Variable)
    | DefinedUnary(unaryName: DefinedOpName, operand: Expr)
    | IntrinsicBinary(bop: BinaryOp, left: Expr, right: Expr)
    | DefinedBinary(binaryName: DefinedOpName, left: Expr, right: Expr)
    | SubstringInquiry(substring: Substring)

  /** R757 component-spec -> [keyword =] component-data-source. */
  datatype ComponentSpec = ComponentSpec(keyword: Option<Name>, value: Expr)

  /** R910 substring-range -> [scalar-int-expr] : [scalar-int-expr]. */
  datatype SubstringRange = SubstringRange(lower: Option<Expr>, upper: Option<Expr>)

  /** R921 subscript-triplet -> [subscript] : [subscript] [: stride]. */
  datatype SubscriptTriplet = SubscriptTriplet(lower: Option<Expr>, upper: Option<Expr>, stride: Option<Expr>)

  /** R920 section-subscript -> subscript | subscript-triplet | vector-subscript. */
  datatype SectionSubscript = Subscript(index: Expr) | Triplet(triplet: SubscriptTriplet)

  /** R926 image-selector-spec. */
  datatype ImageSelectorSpec = Stat(stat: Variable) | TeamValue(team: Expr) | TeamNumber(number: Expr)

  /** R924 image-selector -> lbracket cosubscript-list [, image-selector-spec-list] rbracket. */
  datatype ImageSelector = ImageSelector(cosubscripts: seq<Expr>, specs: seq<ImageSelectorSpec>)

  /** R912 part-ref -> part-name [( section-subscript-list )] [image-selector]. */
  datatype PartRef = PartRef(name: Name, subscripts: seq<SectionSubscript>, imageSelector: Option<ImageSelector>)

  /** R911 data-ref, in the nested form the parser leaves it in. */
  datatype DataRef =
    | NameRef(name: Name)
    | Component(component: StructureComponent)
    | Element(element: ArrayElement)
    | Coindexed(coindexed: CoindexedNamedObject)

  /** R913 structure-component: `base % component`. */
  datatype StructureComponent = StructureComponent(base: DataRef, componentName: Name)

  /** R917 array-element: `base(subscripts)`. */
  datatype ArrayElement = ArrayElement(base: DataRef, subscripts: seq<SectionSubscript>)

  /** R914 coindexed-named-object: `base[image-selector]`. */
  datatype CoindexedNamedObject = CoindexedNamedObject(base: DataRef, imageSelector: ImageSelector)

  /** R908 substring -> parent-string ( substring-range ). */
  datatype Substring = Substring(parent: DataRef, range: SubstringRange)

  /** R901 designator. */
  datatype Designator = DataRefDesignator(dataRef: DataRef) | SubstringDesignator(substring: Substring)

  /** R902 variable -> designator | function-reference. */
  datatype Variable = VariableDesignator(designator: Designator) | VariableCall(reference: FunctionReference)

  /** R1522 procedure-designator -> procedure-name | proc-component-ref. */
  datatype ProcedureDesignator = ProcedureName(name: Name) | ProcComponentRef(component: StructureComponent)

  /** R1524 actual-arg; `%REF` and `%VAL` are extensions. */
  datatype ActualArg = ArgExpr(expr: Expr) | AltReturnSpec(returnLabel: nat) | PercentRef(refExpr: Expr) | PercentVal(valExpr: Expr)

  /** R1523 actual-arg-spec -> [keyword =] actual-arg. */
  datatype ActualArgSpec = ActualArgSpec(keyword: Option<Name>, arg: ActualArg)

  /** R1520 function-reference -> procedure-designator ( [actual-arg-spec-list] ). */
  datatype Call = Call(procedure: ProcedureDesignator, args: seq<ActualArgSpec>)

  /** `FunctionReference` wraps a `Call`. */
  datatype FunctionReference = FunctionReference(call: Call)

  /** The number of alternatives of `Expr::u`. */
  const ExprAlternatives: nat := 31

  /** The position of a unary operator among `Expr::u`'s alternatives. */
  function UnaryIndex(op: UnaryOp): nat
  {
    match op
    case Parentheses => 6
    case UnaryPlus => 7
    case Negate => 8
    case Not => 9
  }

  /** The position of a binary operator among `Expr::u`'s alternatives:
      the sixteen R608 operators in a row, `ComplexConstructor` after
      `DefinedBinary`. */
  function BinaryIndex(op: BinaryOp): nat
  {
    match op
    case BinPower => 12
    case BinMultiply => 13
    case BinDivide => 14
    case BinAdd => 15
    case BinSubtract => 16
    case BinConcat => 17
    case BinLT => 18
    case BinLE => 19
    case BinEQ => 20
    case BinNE => 21
    case BinGE => 22
    case BinGT => 23
    case BinAND => 24
    case BinOR => 25
    case BinEQV => 26
    case BinNEQV => 27
    case ComplexConstructor => 29
  }

  /** `u.index()`: which alternative of `Expr::u` a node holds. */
  function Alternative(e: Expr): (i: nat)
    ensures i < ExprAlternatives
  {
    match e
    case CharLiteralSubstring(_, _) => 0
    case Literal(_) => 1
    case DesignatorExpr(_) => 2
    case ArrayCons(_) => 3
    case StructureCons(_, _) => 4
    case FunctionRef(_) => 5
    case IntrinsicUnary(op, _) => UnaryIndex(op)
    case PercentLoc(_) => 10
    case DefinedUnary(_, _) => 11
    case IntrinsicBinary(op, _, _) => BinaryIndex(op)
    case DefinedBinary(_, _, _) => 28
    case SubstringInquiry(_) => 30
  }

  /** Two nodes are the same kind of node: the same constructor and, for an
      intrinsic operation, the same operator. */
  predicate SameKind(e1: Expr, e2: Expr)
  {
    match e1
    case IntrinsicUnary(op, _) => e2.IntrinsicUnary? && e2.uop == op
    case IntrinsicBinary(op, _, _) => e2.IntrinsicBinary? && e2.bop == op
    case CharLiteralSubstring(_, _) => e2.CharLiteralSubstring?
    case Literal(_) => e2.Literal?
    case DesignatorExpr(_) => e2.DesignatorExpr?
    case ArrayCons(_) => e2.ArrayCons?
    case StructureCons(_, _) => e2.StructureCons?
    case FunctionRef(_) => e2.FunctionRef?
    case PercentLoc(_) => e2.PercentLoc?
    case DefinedUnary(_, _) => e2.DefinedUnary?
    case DefinedBinary(_, _, _) => e2.DefinedBinary?
    case SubstringInquiry(_) => e2.SubstringInquiry?
  }

  /** Folding the operator structs into tags loses nothing: two nodes hold
      the same alternative of `Expr::u` exactly when they are the same kind
      of node. */
  lemma AlternativeIsKind(e1: Expr, e2: Expr)
    ensures Alternative(e1) == Alternative(e2) <==> SameKind(e1, e2)
  {}

  /** The unary operator at a position of `Expr::u`, if any. */
  function UnaryAt(i: nat): (r: Option<UnaryOp>)
    ensures forall op: UnaryOp :: UnaryIndex(op) == i <==> r == Some(op)
  {
    match i
    case 6 => Some(Parentheses)
    case 7 => Some(UnaryPlus)
    case 8 => Some(Negate)
    case 9 => Some(Not)
    case _ => None
  }

  /** The binary operator at a position of `Expr::u`, if any. */
  function BinaryAt(i: nat): (r: Option<BinaryOp>)
    ensures forall op: BinaryOp :: BinaryIndex(op) == i <==> r == Some(op)
  {
    match i
    case 12 => Some(BinPower)
    case 13 => Some(BinMultiply)
    case 14 => Some(BinDivide)
    case 15 => Some(BinAdd)
    case 16 => Some(BinSubtract)
    case 17 => Some(BinConcat)
    case 18 => Some(BinLT)
    case 19 => Some(BinLE)
    case 20 => Some(BinEQ)
    case 21 => Some(BinNE)
    case 22 => Some(BinGE)
    case 23 => Some(BinGT)
    case 24 => Some(BinAND)
    case 25 => Some(BinOR)
    case 26 => Some(BinEQV)
    case 27 => Some(BinNEQV)
    case 29 => Some(ComplexConstructor)
    case _ => None
  }

  /** A node holding a given alternative of `Expr::u`, its operands and
      contents chosen arbitrarily. */
  function NodeAt(i: nat): (e: Expr)
    requires i < ExprAlternatives
    ensures Alternative(e) == i
  {
    var leaf := Literal(LogicalLiteral(true));
    var range := SubstringRange(None, None);
    var dataRef := NameRef(Name("x"));
    var call := FunctionReference(Call(ProcedureName(Name("f")), []));
    var defined := DefinedOpName(Name(".op."));
    match i
    case 0 => CharLiteralSubstring("", range)
    case 1 => leaf
    case 2 => DesignatorExpr(DataRefDesignator(dataRef))
    case 3 => ArrayCons([])
    case 4 => StructureCons(Name("t"), [])
    case 5 => FunctionRef(call)
    case 10 => PercentLoc(VariableDesignator(DataRefDesignator(dataRef)))
    case 11 => DefinedUnary(defined, leaf)
    case 28 => DefinedBinary(defined, leaf, leaf)
    case 30 => SubstringInquiry(Substring(dataRef, range))
    case _ =>
      if UnaryAt(i).Some? then IntrinsicUnary(UnaryAt(i).value, leaf)
      else IntrinsicBinary(BinaryAt(i).value, leaf, leaf)
  }

  /** Every one of the 31 positions of `Expr::u` is the alternative of some
      node: an intrinsic operator or one of the ten other alternatives. */
  lemma EveryAlternativeOccurs(i: nat)
    requires i < ExprAlternatives
    ensures exists e: Expr :: Alternative(e) == i
    ensures UnaryAt(i).Some? || BinaryAt(i).Some? || i in {0, 1, 2, 3, 4, 5, 10, 11, 28, 30}
  {
    var e := NodeAt(i);
    assert Alternative(e) == i;
  }

  /** The expression an operation applies to directly, left to right. */
  function Operands(e: Expr): (r: seq<Expr>)
    ensures |r| == (if e.IntrinsicBinary? || e.DefinedBinary? then 2
                    else if e.IntrinsicUnary? || e.DefinedUnary? then 1 else 0)
    ensures forall o :: o in r ==> o < e
    ensures e.IntrinsicBinary? || e.DefinedBinary? ==> r == [e.left, e.right]
    ensures e.IntrinsicUnary? || e.DefinedUnary? ==> r == [e.operand]
  {
    match e
    case IntrinsicUnary(_, x) => [x]
    case DefinedUnary(_, x) => [x]
    case IntrinsicBinary(_, l, r) => [l, r]
    case DefinedBinary(_, l, r) => [l, r]
    case _ => []
  }

  /** `e` wrapped in `k` parentheses: `((e))` is `Nest(2, e)`. */
  function Nest(k: nat, e: Expr): (r: Expr)
    ensures Alternative(r) == if k == 0 then Alternative(e) else UnaryIndex(Parentheses)
  {
    if k == 0 then e else IntrinsicUnary(Parentheses, Nest(k - 1, e))
  }

  /** The number of steps a visitor that descends into the first operand
      takes before it reaches a node without operands. */
  function Descents(e: Expr): (n: nat)
    ensures n == 0 <==> Operands(e) == []
  {
    if Operands(e) == [] then 0 else 1 + Descents(Operands(e)[0])
  }

  /** The node that visitor stops at. */
  function Leaf(e: Expr): (r: Expr)
    ensures Operands(r) == []
  {
    if Operands(e) == [] then e else Leaf(Operands(e)[0])
  }

  /** A leaf wrapped in `k` parentheses is reached after exactly `k`
      descents, and it is the leaf that was wrapped. */
  lemma {:induction false} NestDepth(k: nat, leaf: Expr)
    requires Operands(leaf) == []
    ensures Descents(Nest(k, leaf)) == k && Leaf(Nest(k, leaf)) == leaf
  {
    if k > 0 {
      NestDepth(k - 1, leaf);
    }
  }

  /** `((((1))))`: four parentheses nodes around one integer literal, which
      a visitor reaches after four descents. */
  lemma FourParentheses()
    ensures var e := Nest(4, Literal(IntLiteral("1")));
            e == IntrinsicUnary(Parentheses, IntrinsicUnary(Parentheses,
                   IntrinsicUnary(Parentheses, IntrinsicUnary(Parentheses, Literal(IntLiteral("1"))))))
            && Descents(e) == 4 && Leaf(e) == Literal(IntLiteral("1"))
  {
    NestDepth(4, Literal(IntLiteral("1")));
  }

  /** `ActualArg(Expr &&)`: an expression argument is held behind an
      indirection, i.e. in the first alternative. */
  function ArgOfExpr(x: Expr): (r: ActualArg)
    ensures ExprOfArg(r) == Some(x)
  {
    ArgExpr(x)
  }

  /** The expression of an argument in the first alternative. */
  function ExprOfArg(a: ActualArg): Option<Expr>
  {
    if a.ArgExpr? then Some(a.expr) else None
  }

  /** The arguments `ActualArg(Expr &&)` builds are exactly the ones in the
      first alternative. */
  lemma ArgOfExprInverse(a: ActualArg, x: Expr)
    ensures ExprOfArg(a) == Some(x) <==> a == ArgOfExpr(x)
  {}

  /**
   * The part-refs R911 reads a data-ref as: `a % b(i) % c[j]` has the three
   * parts `a`, `b(i)` and `c[j]`. A structure component adds a part; an
   * array element sets the subscripts of the last part and a coindexed
   * object its image selector. This is the reading of the canonical shape
   * that `DataRef(std::list<PartRef> &&)` builds, where each part carries
   * at most one subscript list; in a doubly subscripted node the outer
   * subscripts replace the inner ones.
   */
  function Parts(d: DataRef): (r: seq<PartRef>)
    ensures |r| >= 1
  {
    match d
    case NameRef(n) => [PartRef(n, [], None)]
    case Component(sc) => Parts(sc.base) + [PartRef(sc.componentName, [], None)]
    case Element(ae) =>
      var p := Parts(ae.base);
      p[..|p| - 1] + [p[|p| - 1].(subscripts := ae.subscripts)]
    case Coindexed(co) =>
      var p := Parts(co.base);
      p[..|p| - 1] + [p[|p| - 1].(imageSelector := Some(co.imageSelector))]
  }

  /** The object a data-ref starts from. */
  function BaseName(d: DataRef): Name
  {
    match d
    case NameRef(n) => n
    case Component(sc) => BaseName(sc.base)
    case Element(ae) => BaseName(ae.base)
    case Coindexed(co) => BaseName(co.base)
  }

  /** The number of `%` links in a data-ref. */
  function ComponentCount(d: DataRef): nat
  {
    match d
    case NameRef(_) => 0
    case Component(sc) => ComponentCount(sc.base) + 1
    case Element(ae) => ComponentCount(ae.base)
    case Coindexed(co) => ComponentCount(co.base)
  }

  /** The first part names the base object, and there is one part per `%`
      link plus one. */
  lemma {:induction false} PartsOfDataRef(d: DataRef)
    ensures Parts(d)[0].name == BaseName(d)
    ensures |Parts(d)| == ComponentCount(d) + 1
  {
    match d
    case NameRef(_) =>
    case Component(sc) => PartsOfDataRef(sc.base);
    case Element(ae) => PartsOfDataRef(ae.base);
    case Coindexed(co) => PartsOfDataRef(co.base);
  }

  /** `x % y(1)` reads as the parts `x` and `y(1)`. */
  lemma PartsExample()
    ensures var one := Literal(IntLiteral("1"));
            var d := Element(ArrayElement(Component(StructureComponent(NameRef(Name("x")), Name("y"))), [Subscript(one)]));
            Parts(d) == [PartRef(Name("x"), [], None), PartRef(Name("y"), [Subscript(one)], None)]
  {}
}

=== FILE: flang_omp_atomic.dfy ===
/**
 * `OpenMPAtomicConstruct::Analysis`: the `what` of an atomic operation is an
 * `int` holding an action (none, read, write or update) in its two low bits
 * and a condition (if-true, if-false or both) in the next two.
 */
module FlangOmpAtomic {

  const None: bv32 := 0
  const Read: bv32 := 1
  const Write: bv32 := 2
  const Update: bv32 := Read | Write
  /** Mask of the action bits. */
  const Action: bv32 := 3
  const IfTrue: bv32 := 4
  const IfFalse: bv32 := 8
  /** Mask of the condition bits. */
  const Condition: bv32 := 12

  predicate IsAction(a: bv32)
  {
    a == None || a == Read || a == Write || a == Update
  }

  predicate IsCondition(c: bv32)
  {
    c == None || c == IfTrue || c == IfFalse || c == (IfTrue | IfFalse)
  }

  /** The masks are what their comments say: `Action` covers the four
      actions, `Condition` the two conditions, and they share no bit. */
  lemma AnalysisMasks()
    ensures Update == 3
    ensures Action == (None | Read | Write | Update)
    ensures Condition == (IfTrue | IfFalse)
    ensures (Action & Condition) == 0
  {}

  /** An action combined with a condition. */
  function Combine(action: bv32, condition: bv32): (what: bv32)
    requires IsAction(action) && IsCondition(condition)
    ensures ActionOf(what) == action && ConditionOf(what) == condition
  {
    action | condition
  }

  /** The action part of `what`. */
  function ActionOf(what: bv32): (a: bv32)
    ensures IsAction(a)
  {
    what & Action
  }

  /** The condition part of `what`. */
  function ConditionOf(what: bv32): (c: bv32)
    ensures IsCondition(c)
  {
    what & Condition
  }

  /** A `what` with no bits beyond the two masks is its action combined with
      its condition. */
  lemma CombineSplit(what: bv32)
    requires (what & !(Action | Condition)) == 0
    ensures Combine(ActionOf(what), ConditionOf(what)) == what
  {}
}

=== FILE: flang_stmts.dfy ===
/**
 * Statements and executable constructs of the Flang parse tree: labelled
 * statements, blocks, CALL, the IF and DO constructs, and the OpenMP and
 * OpenACC constructs that enclose a DO loop.
 */
module FlangStmts {
  import opened Wrappers
  import opened FlangExpr

  /** R611 label; its range `1..99999` is checked after parsing. */
  type Label = nat

  /** `Statement<A>`: a statement with its optional label. */
  datatype Statement<A> = Statement(stmtLabel: Option<Label>, statement: A)

  /** The `Chevrons` of a CUDA kernel launch `<<<grid, block[, bytes[, stream]]>>>`;
      an absent first expression is `*`. */
  datatype Chevrons = Chevrons(grid: Option<Expr>, block: Expr, bytes: Option<Expr>, stream: Option<Expr>)

  /** R1521 call-stmt; the procedure and arguments are held as a `Call`, the
      same node a function reference holds. */
  datatype CallStmt = CallStmt(call: Call, chevrons: Option<Chevrons>)

  /** The `CallStmt` constructor: procedure, optional chevrons and
      arguments are split between `call` and `chevrons`. */
  function CallStmtOf(pd: ProcedureDesignator, ch: Option<Chevrons>, args: seq<ActualArgSpec>): (r: CallStmt)
    ensures r.call.procedure == pd && r.call.args == args && r.chevrons == ch
  {
    CallStmt(Call(pd, args), ch)
  }

  /** Every CALL statement is built by the constructor from its own parts,
      and from no others. */
  lemma CallStmtOfInverse(s: CallStmt, pd: ProcedureDesignator, ch: Option<Chevrons>, args: seq<ActualArgSpec>)
    ensures s == CallStmtOf(s.call.procedure, s.chevrons, s.call.args)
    ensures s == CallStmtOf(pd, ch, args) ==> s.call.procedure == pd && s.chevrons == ch && s.call.args == args
  {}

  /** R515 action-stmt; the action statements this model does not look into
      are kept by name only. */
  datatype ActionStmt =
    | Assignment(variable: Variable, value: Expr)
    | CallAction(callStmt: CallStmt)
    | Continue
    | Cycle(cycleName: Option<Name>)
    | Exit(exitName: Option<Name>)
    | OtherAction(keyword: string)

  /** R1123 loop-control. */
  datatype LoopControl =
    | Bounds(doVariable: Name, lower: Expr, upper: Expr, step: Option<Expr>)
    | While(condition: Expr)
    | Concurrent(indices: seq<ConcurrentControl>, mask: Option<Expr>)

  /** R1126 concurrent-control -> index-name = lower : upper [: step]. */
  datatype ConcurrentControl = ConcurrentControl(index: Name, lower: Expr, upper: Expr, step: Option<Expr>)

  /** R1122 nonlabel-do-stmt: construct name, label, loop control. */
  datatype NonLabelDoStmt = NonLabelDoStmt(doName: Option<Name>, doLabel: Option<Label>, control: Option<LoopControl>)

  /** R1132 end-do-stmt -> END DO [do-construct-name]. */
  datatype EndDoStmt = EndDoStmt(endName: Option<Name>)

  /** R1119 do-construct -> do-stmt block end-do. */
  datatype DoConstruct = DoConstruct(doStmt: Statement<NonLabelDoStmt>, body: Block, endDo: Statement<EndDoStmt>)

  /** R1135 if-then-stmt -> [if-construct-name :] IF ( scalar-logical-expr ) THEN. */
  datatype IfThenStmt = IfThenStmt(ifName: Option<Name>, condition: Expr)

  /** R1136 else-if-stmt -> ELSE IF ( scalar-logical-expr ) THEN [if-construct-name]. */
  datatype ElseIfStmt = ElseIfStmt(condition: Expr, elseIfName: Option<Name>)

  /** R1137 else-stmt -> ELSE [if-construct-name]. */
  datatype ElseStmt = ElseStmt(elseName: Option<Name>)

  /** R1138 end-if-stmt -> END IF [if-construct-name]. */
  datatype EndIfStmt = EndIfStmt(endName: Option<Name>)

  /** `IfConstruct::ElseIfBlock`. */
  datatype ElseIfBlock = ElseIfBlock(elseIfStmt: Statement<ElseIfStmt>, body: Block)

  /** `IfConstruct::ElseBlock`. */
  datatype ElseBlock = ElseBlock(elseStmt: Statement<ElseStmt>, body: Block)

  /** R1134 if-construct -> if-then-stmt block [else-if-stmt block]...
      [else-stmt block] end-if-stmt. */
  datatype IfConstruct = IfConstruct(
    ifThen: Statement<IfThenStmt>,
    thenBlock: Block,
    elseIfs: seq<ElseIfBlock>,
    elseBlock: Option<ElseBlock>,
    endIf: Statement<EndIfStmt>)

  /** A begin or end directive with its clauses, which are kept by name. */
  datatype Directive = Directive(directive: string, clauses: seq<string>)

  /** The loop an OpenMP loop directive encloses: a DO loop or another
      OpenMP loop construct. */
  datatype NestedConstruct = NestedDo(doLoop: DoConstruct) | NestedOmp(ompLoop: OpenMPLoopConstruct)

  /** `OpenMPLoopConstruct`: begin directive, enclosed loop, end directive. */
  datatype OpenMPLoopConstruct = OpenMPLoopConstruct(begin: Directive, nested: Option<NestedConstruct>, end: Option<Directive>)

  /** `AccEndLoop`, an empty class. */
  datatype AccEndLoop = AccEndLoop

  /** `OpenACCLoopConstruct`: begin directive, enclosed DO, `END LOOP`. */
  datatype OpenACCLoopConstruct = OpenACCLoopConstruct(begin: Directive, loop: Option<DoConstruct>, end: Option<AccEndLoop>)

  /** `OpenACCCombinedConstruct`: begin directive, enclosed DO, end directive. */
  datatype OpenACCCombinedConstruct = OpenACCCombinedConstruct(begin: Directive, loop: Option<DoConstruct>, end: Option<Directive>)

  /** R514 executable-construct and R510 execution-part-construct, for the
      constructs this model covers. */
  datatype ExecutionPartConstruct =
    | Action(action: Statement<ActionStmt>)
    | If(ifConstruct: IfConstruct)
    | Do(doConstruct: DoConstruct)
    | OmpLoop(ompLoop: OpenMPLoopConstruct)
    | AccLoop(accLoop: OpenACCLoopConstruct)
    | AccCombined(accCombined: OpenACCCombinedConstruct)

  /** R1101 block -> [execution-part-construct]... */
  type Block = seq<ExecutionPartConstruct>

  /**
   * The guarded blocks of an IF construct in the order they are tried: the
   * IF block under the IF condition, then each ELSE IF block under its own
   * condition. The ELSE block is not guarded and is not among them.
   */
  function Branches(ic: IfConstruct): (r: seq<(Expr, Block)>)
    ensures |r| == |ic.elseIfs| + 1
    ensures r[0] == (ic.ifThen.statement.condition, ic.thenBlock)
    ensures forall i :: 0 <= i < |ic.elseIfs| ==>
              r[i + 1] == (ic.elseIfs[i].elseIfStmt.statement.condition, ic.elseIfs[i].body)
  {
    [(ic.ifThen.statement.condition, ic.thenBlock)] + ElseIfBranches(ic.elseIfs)
  }

  function ElseIfBranches(blocks: seq<ElseIfBlock>): (r: seq<(Expr, Block)>)
    ensures |r| == |blocks|
    ensures forall i :: 0 <= i < |blocks| ==> r[i] == (blocks[i].elseIfStmt.statement.condition, blocks[i].body)
  {
    if blocks == [] then []
    else [(blocks[0].elseIfStmt.statement.condition, blocks[0].body)] + ElseIfBranches(blocks[1..])
  }

  /** Every block of an IF construct in source order; the construct has one
      block more than it has branches exactly when it has an ELSE. */
  function Blocks(ic: IfConstruct): (r: seq<Block>)
    ensures |r| == |ic.elseIfs| + 1 + (if ic.elseBlock.Some? then 1 else 0)
    ensures r[0] == ic.thenBlock
    ensures forall i :: 0 <= i < |ic.elseIfs| ==> r[i + 1] == ic.elseIfs[i].body
    ensures ic.elseBlock.Some? ==> r[|r| - 1] == ic.elseBlock.value.body
  {
    var guarded := seq(|Branches(ic)|, i requires 0 <= i < |Branches(ic)| => Branches(ic)[i].1);
    if ic.elseBlock.Some? then guarded + [ic.elseBlock.value.body] else guarded
  }

  /** `IF (a) THEN; ELSE IF (b) THEN; ELSE IF (c) THEN; ELSE; END IF` has
      the three conditions in order and four blocks. */
  lemma TwoElseIfs(a: Expr, b: Expr, c: Expr, x: Block, y: Block, z: Block, w: Block)
    ensures var ic := IfConstruct(
              Statement(None, IfThenStmt(None, a)), x,
              [ElseIfBlock(Statement(None, ElseIfStmt(b, None)), y),
               ElseIfBlock(Statement(Some(20), ElseIfStmt(c, None)), z)],
              Some(ElseBlock(Statement(None, ElseStmt(None)), w)),
              Statement(None, EndIfStmt(None)));
            Branches(ic) == [(a, x), (b, y), (c, z)] && Blocks(ic) == [x, y, z, w]
  {}

  /** `OpenMPLoopConstruct(OmpBeginLoopDirective &&)`: the loop and the end
      directive are filled in later and start absent. */
  function OmpLoopOfBegin(a: Directive): (r: OpenMPLoopConstruct)
    ensures r.begin == a && r.nested == None && r.end == None
  {
    OpenMPLoopConstruct(a, None, None)
  }

  /** The constructs that constructor builds are exactly those with neither
      a loop nor an end directive. */
  lemma OmpLoopOfBeginExactly(c: OpenMPLoopConstruct)
    ensures c == OmpLoopOfBegin(c.begin) <==> c.nested.None? && c.end.None?
  {}

  /** `OpenACCLoopConstruct(AccBeginLoopDirective &&)`. */
  function AccLoopOfBegin(a: Directive): (r: OpenACCLoopConstruct)
    ensures r.begin == a && r.loop == None && r.end == None
  {
    OpenACCLoopConstruct(a, None, None)
  }

  lemma AccLoopOfBeginExactly(c: OpenACCLoopConstruct)
    ensures c == AccLoopOfBegin(c.begin) <==> c.loop.None? && c.end.None?
  {}

  /** `OpenACCCombinedConstruct(AccBeginCombinedDirective &&)`. */
  function AccCombinedOfBegin(a: Directive): (r: OpenACCCombinedConstruct)
    ensures r.begin == a && r.loop == None && r.end == None
  {
    OpenACCCombinedConstruct(a, None, None)
  }

  lemma AccCombinedOfBeginExactly(c: OpenACCCombinedConstruct)
    ensures c == AccCombinedOfBegin(c.begin) <==> c.loop.None? && c.end.None?
  {}
}

=== FILE: goff_behavioral_attributes.dfy ===
/**
 * `GOFF::BehavioralAttributes`: ten `Flags` bytes, of which the accessors
 * that `GOFF_BEHAVIORAL_ATTRIBUTE` generates use the first seven. Each field
 * sits at a fixed (byte, bit index, length); bytes 7 to 9 stay as they are.
 */
module GoffBehavioralAttributes {
  import opened GoffBits
  import opened GoffFlags
  import opened GoffEnums

  /** The number of attribute bytes, `Attr[10]`. */
  const AttrCount: nat := 10

  /** The array `Attr`. */
  type AttrBytes = s: seq<Flags> | |s| == AttrCount witness seq(AttrCount, _ => Zero)

  /** The rows of the `GOFF_BEHAVIORAL_ATTRIBUTE` table. */
  datatype AttrField =
    Amode
    | Rmode
    | TextStyle
    | BindingAlgorithm
    | TaskingBehavior
    | ReadOnly
    | Executable
    | DuplicateSymbolSeverity
    | BindingStrength
    | LoadingBehavior
    | Common
    | IndirectReference
    | BindingScope
    | LinkageType
    | Alignment
  {
    /** `ATTRIDX`: the byte holding the field. */
    function Index(): (i: nat)
      ensures i < AttrCount
    {
      match this
      case Amode => 0
      case Rmode => 1
      case TextStyle => 2
      case BindingAlgorithm => 2
      case TaskingBehavior => 3
      case ReadOnly => 3
      case Executable => 3
      case DuplicateSymbolSeverity => 4
      case BindingStrength => 4
      case LoadingBehavior => 5
      case Common => 5
      case IndirectReference => 5
      case BindingScope => 5
      case LinkageType => 6
      case Alignment => 6
    }

    /** `BITINDEX` and `LENGTH`: where the field lies in its byte. */
    function Field(): (f: BitField)
      ensures f.Valid() && 1 <= f.length
    {
      match this
      case Amode => BitField(0, 8)
      case Rmode => BitField(0, 8)
      case TextStyle => BitField(0, 4)
      case BindingAlgorithm => BitField(4, 4)
      case TaskingBehavior => BitField(0, 3)
      case ReadOnly => BitField(4, 1)
      case Executable => BitField(5, 3)
      case DuplicateSymbolSeverity => BitField(2, 2)
      case BindingStrength => BitField(4, 4)
      case LoadingBehavior => BitField(0, 2)
      case Common => BitField(2, 1)
      case IndirectReference => BitField(3, 1)
      case BindingScope => BitField(4, 4)
      case LinkageType => BitField(2, 1)
      case Alignment => BitField(3, 5)
    }

    /** The field's C++ type is `bool`. */
    predicate IsFlag()
    {
      this == ReadOnly || this == Common || this == IndirectReference
    }

    /** `c` is the value of a `bool` (0 or 1) or of an enumerator of the
        field's enumeration. */
    predicate Accepts(c: bv8)
    {
      match this
      case Amode => ESDAmodeFromCode(c).Some?
      case Rmode => ESDRmodeFromCode(c).Some?
      case TextStyle => ESDTextStyleFromCode(c).Some?
      case BindingAlgorithm => ESDBindingAlgorithmFromCode(c).Some?
      case TaskingBehavior => ESDTaskingBehaviorFromCode(c).Some?
      case ReadOnly => c <= 1
      case Executable => ESDExecutableFromCode(c).Some?
      case DuplicateSymbolSeverity => ESDDuplicateSymbolSeverityFromCode(c).Some?
      case BindingStrength => ESDBindingStrengthFromCode(c).Some?
      case LoadingBehavior => ESDLoadingBehaviorFromCode(c).Some?
      case Common => c <= 1
      case IndirectReference => c <= 1
      case BindingScope => ESDBindingScopeFromCode(c).Some?
      case LinkageType => ESDLinkageTypeFromCode(c).Some?
      case Alignment => ESDAlignmentFromCode(c).Some?
    }
  }

  datatype BehavioralAttributes = BehavioralAttributes(attr: AttrBytes)
  {
    /** `get##NAME`, before the cast to the field's type. */
    function Get(k: AttrField): (r: bv8)
      ensures Fits(r, k.Field().length)
    {
      attr[k.Index()].Get(k.Field())
    }

    /**
     * `set##NAME`, on the value after `static_cast<uint8_t>`: only the
     * field's own byte changes, and when the value fits it is read back,
     * every other field reads as before, and no bit of the byte outside the
     * field changes, including the bits no field owns.
     */
    function Set(k: AttrField, value: bv8): (r: BehavioralAttributes)
      ensures forall i :: 0 <= i < AttrCount && i != k.Index() ==> r.attr[i] == attr[i]
      ensures Fits(value, k.Field().length) ==> r.Get(k) == value
      ensures Fits(value, k.Field().length) ==>
                forall k2: AttrField :: k2 != k ==> r.Get(k2) == Get(k2)
      ensures Fits(value, k.Field().length) ==>
                KeepsBitsOutside(k.Field(), r.attr[k.Index()].val, attr[k.Index()].val)
    {
      var i := k.Index();
      var r := BehavioralAttributes(attr[i := attr[i].Set(k.Field(), value)]);
      SetKeepsOtherFields(attr[i].val, k, value);
      r
    }

    /** `set##NAME` for the `bool` fields. */
    function SetFlag(k: AttrField, b: bool): (r: BehavioralAttributes)
      requires k.IsFlag()
      ensures r.GetFlag(k) == b
      ensures forall i :: 0 <= i < AttrCount && i != k.Index() ==> r.attr[i] == attr[i]
      ensures forall k2: AttrField :: k2 != k ==> r.Get(k2) == Get(k2)
      ensures KeepsBitsOutside(k.Field(), r.attr[k.Index()].val, attr[k.Index()].val)
    {
      OneFits(k.Field().length);
      Set(k, BoolCode(b))
    }

    /** `get##NAME` for the `bool` fields: `true` exactly when the field's
        one bit is set in its byte. */
    function GetFlag(k: AttrField): (r: bool)
      requires k.IsFlag()
      ensures r <==> BitAt(attr[k.Index()].val, k.Field().bitIndex)
    {
      attr[k.Index()].GetFlag(k.Field())
    }
  }

  /** The default attributes: ten zero bytes. */
  const Default: BehavioralAttributes := BehavioralAttributes(seq(AttrCount, _ => Zero))

  /** Default-constructed attributes read 0 in every field, which is the
      first enumerator or `false`. */
  lemma DefaultReadsZero(k: AttrField)
    ensures Default.Get(k) == 0
    ensures k.IsFlag() ==> !Default.GetFlag(k)
  {
    assert Default.attr[k.Index()] == Zero;
  }

  /** Every value of a field's type fits the field's width, so every typed
      setter is read back by its getter and disturbs no other field. */
  lemma AcceptedValuesFit(b: BehavioralAttributes, k: AttrField, c: bv8)
    requires k.Accepts(c)
    ensures Fits(c, k.Field().length)
    ensures b.Set(k, c).Get(k) == c
    ensures forall k2: AttrField :: k2 != k ==> b.Set(k, c).Get(k2) == b.Get(k2)
  {
    AcceptedFits(k, c);
  }

  lemma AcceptedFits(k: AttrField, c: bv8)
    requires k.Accepts(c)
    ensures Fits(c, k.Field().length)
  {}

  /** The layout: fields in the same byte are disjoint and no field lies in
      bytes 7 to 9. */
  lemma AttrLayout()
    ensures forall k1: AttrField, k2: AttrField :: k1 != k2 && k1.Index() == k2.Index() ==>
              k1.Field().DisjointFrom(k2.Field())
    ensures forall k: AttrField :: k.Index() < 7
  {}

  /** No setter writes bytes 7 to 9. */
  lemma TrailingBytesNeverWritten(b: BehavioralAttributes, k: AttrField, value: bv8)
    ensures forall i :: 7 <= i < AttrCount ==> b.Set(k, value).attr[i] == b.attr[i]
  {
    AttrLayout();
  }

  lemma SetKeepsOtherFields(x: bv8, k: AttrField, value: bv8)
    ensures Fits(value, k.Field().length) ==> forall k2: AttrField :: k2 != k && k2.Index() == k.Index() ==>
              Flags(x).Set(k.Field(), value).Get(k2.Field()) == Flags(x).Get(k2.Field())
  {
    if Fits(value, k.Field().length) {
      forall k2: AttrField | k2 != k && k2.Index() == k.Index()
        ensures Flags(x).Set(k.Field(), value).Get(k2.Field()) == Flags(x).Get(k2.Field())
      {
        SetKeepsOtherField(x, k, value, k2);
      }
    }
  }

  /** Setting a field with a value that fits leaves the other fields of the
      same byte unchanged. */
  lemma SetKeepsOtherField(x: bv8, k: AttrField, value: bv8, k2: AttrField)
    requires k != k2 && k.Index() == k2.Index() && Fits(value, k.Field().length)
    ensures Flags(x).Set(k.Field(), value).Get(k2.Field()) == Flags(x).Get(k2.Field())
  {
    match k
    case Amode =>
    case Rmode =>
    case TextStyle => BesideTextStyle(x, value, k2);
    case BindingAlgorithm => BesideBindingAlgorithm(x, value, k2);
    case TaskingBehavior => BesideTaskingBehavior(x, value, k2);
    case ReadOnly => BesideReadOnly(x, value, k2);
    case Executable => BesideExecutable(x, value, k2);
    case DuplicateSymbolSeverity => BesideDuplicateSymbolSeverity(x, value, k2);
    case BindingStrength => BesideBindingStrength(x, value, k2);
    case LoadingBehavior => BesideLoadingBehavior(x, value, k2);
    case Common => BesideCommon(x, value, k2);
    case IndirectReference => BesideIndirectReference(x, value, k2);
    case BindingScope => BesideBindingScope(x, value, k2);
    case LinkageType => BesideLinkageType(x, value, k2);
    case Alignment => BesideAlignment(x, value, k2);
  }

  lemma BesideTextStyle(x: bv8, value: bv8, k2: AttrField)
    requires k2 != TextStyle && k2.Index() == 2 && value <= 15
    ensures Extracted(Packed(BitField(0, 4), value, x), k2.Field()) == Extracted(x, k2.Field())
  {}

  lemma BesideBindingAlgorithm(x: bv8, value: bv8, k2: AttrField)
    requires k2 != BindingAlgorithm && k2.Index() == 2 && value <= 15
    ensures Extracted(Packed(BitField(4, 4), value, x), k2.Field()) == Extracted(x, k2.Field())
  {}

  lemma BesideTaskingBehavior(x: bv8, value: bv8, k2: AttrField)
    requires k2 != TaskingBehavior && k2.Index() == 3 && value <= 7
    ensures Extracted(Packed(BitField(0, 3), value, x), k2.Field()) == Extracted(x, k2.Field())
  {}

  lemma BesideReadOnly(x: bv8, value: bv8, k2: AttrField)
    requires k2 != ReadOnly && k2.Index() == 3 && value <= 1
    ensures Extracted(Packed(BitField(4, 1), value, x), k2.Field()) == Extracted(x, k2.Field())
  {}

  lemma BesideExecutable(x: bv8, value: bv8, k2: AttrField)
    requires k2 != Executable && k2.Index() == 3 && value <= 7
    ensures Extracted(Packed(BitField(5, 3), value, x), k2.Field()) == Extracted(x, k2.Field())
  {}

  lemma BesideDuplicateSymbolSeverity(x: bv8, value: bv8, k2: AttrField)
    requires k2 != DuplicateSymbolSeverity && k2.Index() == 4 && value <= 3
    ensures Extracted(Packed(BitField(2, 2), value, x), k2.Field()) == Extracted(x, k2.Field())
  {}

  lemma BesideBindingStrength(x: bv8, value: bv8, k2: AttrField)
    requires k2 != BindingStrength && k2.Index() == 4 && value <= 15
    ensures Extracted(Packed(BitField(4, 4), value, x), k2.Field()) == Extracted(x, k2.Field())
  {}

  lemma BesideLoadingBehavior(x: bv8, value: bv8, k2: AttrField)
    requires k2 != LoadingBehavior && k2.Index() == 5 && value <= 3
    ensures Extracted(Packed(BitField(0, 2), value, x), k2.Field()) == Extracted(x, k2.Field())
  {}

  lemma BesideCommon(x: bv8, value: bv8, k2: AttrField)
    requires k2 != Common && k2.Index() == 5 && value <= 1
    ensures Extracted(Packed(BitField(2, 1), value, x), k2.Field()) == Extracted(x, k2.Field())
  {}

  lemma BesideIndirectReference(x: bv8, value: bv8, k2: AttrField)
    requires k2 != IndirectReference && k2.Index() == 5 && value <= 1
    ensures Extracted(Packed(BitField(3, 1), value, x), k2.Field()) == Extracted(x, k2.Field())
  {}

  lemma BesideBindingScope(x: bv8, value: bv8, k2: AttrField)
    requires k2 != BindingScope && k2.Index() == 5 && value <= 15
    ensures Extracted(Packed(BitField(4, 4), value, x), k2.Field()) == Extracted(x, k2.Field())
  {}

  lemma BesideLinkageType(x: bv8, value: bv8, k2: AttrField)
    requires k2 != LinkageType && k2.Index() == 6 && value <= 1
    ensures Extracted(Packed(BitField(2, 1), value, x), k2.Field()) == Extracted(x, k2.Field())
  {}

  lemma BesideAlignment(x: bv8, value: bv8, k2: AttrField)
    requires k2 != Alignment && k2.Index() == 6 && value <= 31
    ensures Extracted(Packed(BitField(3, 5), value, x), k2.Field()) == Extracted(x, k2.Field())
  {}
}

=== FILE: goff_bits.dfy ===
/**
 * Bit-level arithmetic behind the GOFF `Flags` byte: sub-byte fields packed
 * into one `uint8_t` with the System/390 bit numbering, in which bit 0 is the
 * high-order (leftmost) bit. A field is named by the index of its first bit
 * and its length in bits.
 */
module GoffBits {
  import opened GoffBitsRaw

  /** A field position inside one byte, in MSB-0 numbering. */
  datatype BitField = BitField(bitIndex: bv8, length: bv8)
  {
    /** The source computes `8 - BitIndex - Length` in `uint8_t`; only fields
        that lie inside the byte give a shift the C++ code can perform. */
    predicate Valid()
    {
      length <= 8 && bitIndex <= 8 - length
    }

    /** MSB-0 bit `b` lies inside this field. */
    predicate Covers(b: bv8)
    {
      bitIndex <= b && b - bitIndex < length
    }

    /** The two fields share no bit. */
    predicate DisjointFrom(other: BitField)
      requires Valid() && other.Valid()
    {
      bitIndex + length <= other.bitIndex || other.bitIndex + other.length <= bitIndex
    }
  }

  /** `(1 << Length) - 1` as the byte it is truncated to. */
  function LowOnes(length: bv8): bv8
    requires length <= 8
  {
    ((1 as bv8) << length) - 1
  }

  /** `value` is small enough for a field of `length` bits (`value < 2^length`). */
  predicate Fits(value: bv8, length: bv8)
    requires length <= 8
  {
    value <= LowOnes(length)
  }

  /** The shift `Pos = 8 - BitIndex - Length` that moves a value into place. */
  function Shift(f: BitField): bv8
    requires f.Valid()
  {
    8 - f.bitIndex - f.length
  }

  /** The field's bits, set, at their place in the byte. */
  function Mask(f: BitField): bv8
    requires f.Valid()
  {
    LowOnes(f.length) << Shift(f)
  }

  /** The packing expression of `Flags::bits`. */
  function Packed(f: BitField, value: bv8, oldValue: bv8): bv8
    requires f.Valid()
  {
    (oldValue & !Mask(f)) | (value << Shift(f))
  }

  /** The reading expression of `Flags::get`. */
  function Extracted(x: bv8, f: BitField): bv8
    requires f.Valid()
  {
    (x >> Shift(f)) & LowOnes(f.length)
  }

  /** Bit `b` of `x` in MSB-0 numbering: the reference reading of a byte. */
  predicate BitAt(x: bv8, b: bv8)
    requires b < 8
  {
    ((x >> (7 - b)) & 1) == 1
  }

  /** Bits after the field (higher MSB-0 index) are those of `prev`. */
  ghost predicate KeepsBitsAfter(f: BitField, r: bv8, prev: bv8)
    requires f.Valid()
  {
    forall b: bv8 :: f.bitIndex + f.length <= b < 8 ==> BitAt(r, b) == BitAt(prev, b)
  }

  /** Every bit outside the field is that of `prev`. */
  ghost predicate KeepsBitsOutside(f: BitField, r: bv8, prev: bv8)
    requires f.Valid()
  {
    forall b: bv8 :: b < 8 && !f.Covers(b) ==> BitAt(r, b) == BitAt(prev, b)
  }

  /** Each bit of the field holds the bit of `value` of the same weight. */
  ghost predicate HoldsValue(f: BitField, r: bv8, value: bv8)
    requires f.Valid()
  {
    forall b: bv8 :: b < 8 && f.Covers(b) ==> BitAt(r, b) == BitAt(value, b + Shift(f))
  }

  /**
   * `Flags::bits`: clear the field in `oldValue` and OR in `value` shifted to
   * the field's position. The value is not masked, exactly as in the source,
   * so an oversize value spills into the higher-order bits before the field;
   * the bits after the field are kept in every case.
   */
  function Bits(f: BitField, value: bv8, oldValue: bv8): (r: bv8)
    requires f.Valid()
    ensures HoldsValue(f, r, value)
    ensures KeepsBitsAfter(f, r, oldValue)
    ensures Fits(value, f.length) ==> KeepsBitsOutside(f, r, oldValue)
  {
    PackedHoldsValue(f, value, oldValue);
    PackedKeepsAfter(f, value, oldValue);
    if Fits(value, f.length) then
      PackedKeepsOutside(f, value, oldValue);
      Packed(f, value, oldValue)
    else
      Packed(f, value, oldValue)
  }

  lemma PackedHoldsValue(f: BitField, value: bv8, oldValue: bv8)
    requires f.Valid()
    ensures HoldsValue(f, Packed(f, value, oldValue), value)
  {
    forall b: bv8 | b < 8 && f.Covers(b)
      ensures BitAt(Packed(f, value, oldValue), b) == BitAt(value, b + Shift(f))
    {
      BitInsideField(f, value, oldValue, b);
    }
  }

  lemma PackedKeepsAfter(f: BitField, value: bv8, oldValue: bv8)
    requires f.Valid()
    ensures KeepsBitsAfter(f, Packed(f, value, oldValue), oldValue)
  {
    forall b: bv8 | f.bitIndex + f.length <= b < 8
      ensures BitAt(Packed(f, value, oldValue), b) == BitAt(oldValue, b)
    {
      BitAfterField(f, value, oldValue, b);
    }
  }

  lemma PackedKeepsOutside(f: BitField, value: bv8, oldValue: bv8)
    requires f.Valid() && Fits(value, f.length)
    ensures KeepsBitsOutside(f, Packed(f, value, oldValue), oldValue)
  {
    forall b: bv8 | b < 8 && !f.Covers(b)
      ensures BitAt(Packed(f, value, oldValue), b) == BitAt(oldValue, b)
    {
      if b < f.bitIndex {
        BitBeforeField(f, value, oldValue, b);
      } else {
        BitAfterField(f, value, oldValue, b);
      }
    }
  }

  lemma BitInsideField(f: BitField, value: bv8, oldValue: bv8, b: bv8)
    requires f.Valid() && b < 8 && f.Covers(b)
    ensures BitAt(Packed(f, value, oldValue), b) == BitAt(value, b + Shift(f))
  {
    RawInside(f.bitIndex, f.length, value, oldValue, b);
  }

  lemma BitAfterField(f: BitField, value: bv8, oldValue: bv8, b: bv8)
    requires f.Valid() && f.bitIndex + f.length <= b < 8
    ensures BitAt(Packed(f, value, oldValue), b) == BitAt(oldValue, b)
  {
    RawAfter(f.bitIndex, f.length, value, oldValue, b);
  }

  lemma BitBeforeField(f: BitField, value: bv8, oldValue: bv8, b: bv8)
    requires f.Valid() && b < f.bitIndex && Fits(value, f.length)
    ensures BitAt(Packed(f, value, oldValue), b) == BitAt(oldValue, b)
  {
    RawBefore(f.bitIndex, f.length, value, oldValue, b);
  }

  /** The field read out of `x`, bit by bit, is the field's bits of `x`. */
  lemma ExtractedByBit(x: bv8, f: BitField)
    requires f.Valid()
    ensures forall b: bv8 :: b < 8 && f.Covers(b) ==>
              BitAt(Extracted(x, f), b + Shift(f)) == BitAt(x, b)
  {
    forall b: bv8 | b < 8 && f.Covers(b)
      ensures BitAt(Extracted(x, f), b + Shift(f)) == BitAt(x, b)
    {
      ExtractedOneBit(x, f, b);
    }
  }

  lemma ExtractedOneBit(x: bv8, f: BitField, b: bv8)
    requires f.Valid() && b < 8 && f.Covers(b)
    ensures BitAt(Extracted(x, f), b + Shift(f)) == BitAt(x, b)
  {
    RawExtractOneBit(f.bitIndex, f.length, x, b);
  }

  /** A field reads as non-zero exactly when one of its bits is set. */
  lemma ExtractedNonZero(x: bv8, f: BitField)
    requires f.Valid()
    ensures Extracted(x, f) != 0 <==> (x & Mask(f)) != 0
  {
    RawGetFlag(f.bitIndex, f.length, x);
  }

  /** A one-bit field reads as non-zero exactly when its bit is set. */
  lemma ExtractedFlagBit(x: bv8, f: BitField)
    requires f.Valid() && f.length == 1
    ensures Extracted(x, f) != 0 <==> BitAt(x, f.bitIndex)
  {
    RawOneBitFlag(f.bitIndex, x);
  }

  /** A value that fits its field is read back unchanged. */
  lemma ExtractPacked(x: bv8, f: BitField, value: bv8)
    requires f.Valid()
    ensures Fits(value, f.length) ==> Extracted(Packed(f, value, x), f) == value
  {
    if Fits(value, f.length) {
      RawRoundTrip(f.bitIndex, f.length, value, x);
    }
  }

  /** Packing the same field twice: the first value leaves no trace if it fit. */
  lemma PackTwice(x: bv8, f: BitField, first: bv8, second: bv8)
    requires f.Valid() && Fits(first, f.length)
    ensures Packed(f, second, Packed(f, first, x)) == Packed(f, second, x)
  {
    RawTwice(f.bitIndex, f.length, first, second, x);
  }
}

=== FILE: goff_bits_raw.dfy ===
/**
 * The bit-level facts behind GOFF field packing, stated on plain bytes with
 * every definition written out: `i` is the MSB-0 index of a field's first
 * bit, `l` its length, `8 - i - l` the shift that moves a value into place,
 * and `((1 << l) - 1) << (8 - i - l)` the field's mask. Kept free of
 * function definitions so that the solver decides each by bit-blasting.
 */
module GoffBitsRaw {

  lemma RawInside(i: bv8, l: bv8, v: bv8, x: bv8, b: bv8)
    requires l <= 8 && i <= 8 - l && b < 8 && i <= b && b - i < l
    ensures ((((x & !((((1 as bv8) << l) - 1) << (8 - i - l))) | (v << (8 - i - l))) >> (7 - b)) & 1)
         == ((v >> (7 - (b + (8 - i - l)))) & 1)
  {}
  lemma RawAfter(i: bv8, l: bv8, v: bv8, x: bv8, b: bv8)
    requires l <= 8 && i <= 8 - l && i + l <= b < 8
    ensures ((((x & !((((1 as bv8) << l) - 1) << (8 - i - l))) | (v << (8 - i - l))) >> (7 - b)) & 1)
         == ((x >> (7 - b)) & 1)
  {}
  lemma RawBefore(i: bv8, l: bv8, v: bv8, x: bv8, b: bv8)
    requires l <= 8 && i <= 8 - l && b < i && v <= ((1 as bv8) << l) - 1
    ensures ((((x & !((((1 as bv8) << l) - 1) << (8 - i - l))) | (v << (8 - i - l))) >> (7 - b)) & 1)
         == ((x >> (7 - b)) & 1)
  {}
  lemma RawExtractOneBit(i: bv8, l: bv8, x: bv8, b: bv8)
    requires l <= 8 && i <= 8 - l && b < 8 && i <= b && b - i < l
    ensures ((((x >> (8 - i - l)) & (((1 as bv8) << l) - 1)) >> (7 - (b + (8 - i - l)))) & 1) == ((x >> (7 - b)) & 1)
  {}
  lemma RawRoundTrip(i: bv8, l: bv8, v: bv8, x: bv8)
    requires l <= 8 && i <= 8 - l && v <= ((1 as bv8) << l) - 1
    ensures ((((x & !((((1 as bv8) << l) - 1) << (8 - i - l))) | (v << (8 - i - l))) >> (8 - i - l)) & (((1 as bv8) << l) - 1)) == v
  {}
  lemma RawTwice(i: bv8, l: bv8, v1: bv8, v2: bv8, x: bv8)
    requires l <= 8 && i <= 8 - l && v1 <= ((1 as bv8) << l) - 1
    ensures ((((x & !((((1 as bv8) << l) - 1) << (8 - i - l))) | (v1 << (8 - i - l))) & !((((1 as bv8) << l) - 1) << (8 - i - l))) | (v2 << (8 - i - l)))
         == ((x & !((((1 as bv8) << l) - 1) << (8 - i - l))) | (v2 << (8 - i - l)))
  {}
  lemma RawGetFlag(i: bv8, l: bv8, x: bv8)
    requires l <= 8 && i <= 8 - l
    ensures (((x >> (8 - i - l)) & (((1 as bv8) << l) - 1)) != 0) == ((x & ((((1 as bv8) << l) - 1) << (8 - i - l))) != 0)
  {}
  lemma RawOneBitFlag(i: bv8, x: bv8)
    requires i < 8
    ensures (((x >> (8 - i - 1)) & (((1 as bv8) << 1) - 1)) != 0) == (((x >> (7 - i)) & 1) == 1)
  {}
}

=== FILE: goff_enums.dfy ===
/**
 * The record-length constants and the `uint8_t` enumerations of the GOFF
 * format. Each enumeration is a datatype whose `Code` is the enumerator's
 * declared value; `FromCode` reads a byte back, failing on a byte that names
 * no enumerator.
 */
module GoffEnums {
  import opened Wrappers

  /** Length of a physical record, of its prefix, and of its payload. */
  const RecordLength: bv8 := 80
  const RecordPrefixLength: bv8 := 3
  const PayloadLength: bv8 := 77
  /** Computed from the other two, in `uint8_t`. */
  const RecordContentLength: bv8 := RecordLength - RecordPrefixLength

  /** Bytes attached to one RLD or TXT card: 32K - 1, the largest signed
      16-bit value. */
  const MaxDataLength: bv16 := 32 * 1024 - 1

  /** The payload is what remains of a record after its prefix. */
  lemma RecordLengthsAgree()
    ensures RecordContentLength == PayloadLength
    ensures RecordPrefixLength as int + PayloadLength as int == RecordLength as int
    ensures MaxDataLength as int == 0x7FFF
  {}


  /** The record type of a GOFF record. */
  datatype RecordType = ESD | TXT | RLD | LEN | END | HDR
  {
    function Code(): bv8
    {
      match this
      case ESD => 0
      case TXT => 1
      case RLD => 2
      case LEN => 3
      case END => 4
      case HDR => 15
    }
  }

  function RecordTypeFromCode(c: bv8): (r: Option<RecordType>)
    ensures forall e: RecordType :: e.Code() == c <==> r == Some(e)
  {
    match c
    case 0 => Some(ESD)
    case 1 => Some(TXT)
    case 2 => Some(RLD)
    case 3 => Some(LEN)
    case 4 => Some(END)
    case 15 => Some(HDR)
    case _ => None
  }


  /** The kind of an external symbol. */
  datatype ESDSymbolType = SectionDefinition | ElementDefinition | LabelDefinition | PartReference | ExternalReference
  {
    function Code(): bv8
    {
      match this
      case SectionDefinition => 0
      case ElementDefinition => 1
      case LabelDefinition => 2
      case PartReference => 3
      case ExternalReference => 4
    }
  }

  function ESDSymbolTypeFromCode(c: bv8): (r: Option<ESDSymbolType>)
    ensures forall e: ESDSymbolType :: e.Code() == c <==> r == Some(e)
  {
    match c
    case 0 => Some(SectionDefinition)
    case 1 => Some(ElementDefinition)
    case 2 => Some(LabelDefinition)
    case 3 => Some(PartReference)
    case 4 => Some(ExternalReference)
    case _ => None
  }


  /** The name space of a symbol. */
  datatype ESDNameSpaceId = ProgramManagementBinder | NormalName | PseudoRegister | Parts
  {
    function Code(): bv8
    {
      match this
      case ProgramManagementBinder => 0
      case NormalName => 1
      case PseudoRegister => 2
      case Parts => 3
    }
  }

  function ESDNameSpaceIdFromCode(c: bv8): (r: Option<ESDNameSpaceId>)
    ensures forall e: ESDNameSpaceId :: e.Code() == c <==> r == Some(e)
  {
    match c
    case 0 => Some(ProgramManagementBinder)
    case 1 => Some(NormalName)
    case 2 => Some(PseudoRegister)
    case 3 => Some(Parts)
    case _ => None
  }


  /** Quadwords reserved at the start of a part. */
  datatype ESDReserveQwords = RQ0 | RQ1 | RQ2 | RQ3
  {
    function Code(): bv8
    {
      match this
      case RQ0 => 0
      case RQ1 => 1
      case RQ2 => 2
      case RQ3 => 3
    }
  }

  function ESDReserveQwordsFromCode(c: bv8): (r: Option<ESDReserveQwords>)
    ensures forall e: ESDReserveQwords :: e.Code() == c <==> r == Some(e)
  {
    match c
    case 0 => Some(RQ0)
    case 1 => Some(RQ1)
    case 2 => Some(RQ2)
    case 3 => Some(RQ3)
    case _ => None
  }


  /** Addressing mode. */
  datatype ESDAmode = AmodeNone | Amode24 | Amode31 | AmodeAny | Amode64 | AmodeMin
  {
    function Code(): bv8
    {
      match this
      case AmodeNone => 0
      case Amode24 => 1
      case Amode31 => 2
      case AmodeAny => 3
      case Amode64 => 4
      case AmodeMin => 16
    }
  }

  function ESDAmodeFromCode(c: bv8): (r: Option<ESDAmode>)
    ensures forall e: ESDAmode :: e.Code() == c <==> r == Some(e)
  {
    match c
    case 0 => Some(AmodeNone)
    case 1 => Some(Amode24)
    case 2 => Some(Amode31)
    case 3 => Some(AmodeAny)
    case 4 => Some(Amode64)
    case 16 => Some(AmodeMin)
    case _ => None
  }


  /** Residence mode. */
  datatype ESDRmode = RmodeNone | Rmode24 | Rmode31 | Rmode64
  {
    function Code(): bv8
    {
      match this
      case RmodeNone => 0
      case Rmode24 => 1
      case Rmode31 => 3
      case Rmode64 => 4
    }
  }

  function ESDRmodeFromCode(c: bv8): (r: Option<ESDRmode>)
    ensures forall e: ESDRmode :: e.Code() == c <==> r == Some(e)
  {
    match c
    case 0 => Some(RmodeNone)
    case 1 => Some(Rmode24)
    case 3 => Some(Rmode31)
    case 4 => Some(Rmode64)
    case _ => None
  }


  /** How the text of a class is organised. */
  datatype ESDTextStyle = ByteOriented | Structured | Unstructured
  {
    function Code(): bv8
    {
      match this
      case ByteOriented => 0
      case Structured => 1
      case Unstructured => 2
    }
  }

  function ESDTextStyleFromCode(c: bv8): (r: Option<ESDTextStyle>)
    ensures forall e: ESDTextStyle :: e.Code() == c <==> r == Some(e)
  {
    match c
    case 0 => Some(ByteOriented)
    case 1 => Some(Structured)
    case 2 => Some(Unstructured)
    case _ => None
  }


  /** How parts of a class are combined. */
  datatype ESDBindingAlgorithm = Concatenate | Merge
  {
    function Code(): bv8
    {
      match this
      case Concatenate => 0
      case Merge => 1
    }
  }

  function ESDBindingAlgorithmFromCode(c: bv8): (r: Option<ESDBindingAlgorithm>)
    ensures forall e: ESDBindingAlgorithm :: e.Code() == c <==> r == Some(e)
  {
    match c
    case 0 => Some(Concatenate)
    case 1 => Some(Merge)
    case _ => None
  }


  /** Reusability of the code. */
  datatype ESDTaskingBehavior = TaskingUnspecified | NonReus | Reus | Rent
  {
    function Code(): bv8
    {
      match this
      case TaskingUnspecified => 0
      case NonReus => 1
      case Reus => 2
      case Rent => 3
    }
  }

  function ESDTaskingBehaviorFromCode(c: bv8): (r: Option<ESDTaskingBehavior>)
    ensures forall e: ESDTaskingBehavior :: e.Code() == c <==> r == Some(e)
  {
    match c
    case 0 => Some(TaskingUnspecified)
    case 1 => Some(NonReus)
    case 2 => Some(Reus)
    case 3 => Some(Rent)
    case _ => None
  }


  /** Whether a symbol names code or data. */
  datatype ESDExecutable = ExeUnspecified | ExeData | ExeCode
  {
    function Code(): bv8
    {
      match this
      case ExeUnspecified => 0
      case ExeData => 1
      case ExeCode => 2
    }
  }

  function ESDExecutableFromCode(c: bv8): (r: Option<ESDExecutable>)
    ensures forall e: ESDExecutable :: e.Code() == c <==> r == Some(e)
  {
    match c
    case 0 => Some(ExeUnspecified)
    case 1 => Some(ExeData)
    case 2 => Some(ExeCode)
    case _ => None
  }


  /** Severity of a duplicate definition. */
  datatype ESDDuplicateSymbolSeverity = NoWarning | Warning | Error | DssReserved
  {
    function Code(): bv8
    {
      match this
      case NoWarning => 0
      case Warning => 1
      case Error => 2
      case DssReserved => 3
    }
  }

  function ESDDuplicateSymbolSeverityFromCode(c: bv8): (r: Option<ESDDuplicateSymbolSeverity>)
    ensures forall e: ESDDuplicateSymbolSeverity :: e.Code() == c <==> r == Some(e)
  {
    match c
    case 0 => Some(NoWarning)
    case 1 => Some(Warning)
    case 2 => Some(Error)
    case 3 => Some(DssReserved)
    case _ => None
  }


  /** Strong or weak binding. */
  datatype ESDBindingStrength = Strong | Weak
  {
    function Code(): bv8
    {
      match this
      case Strong => 0
      case Weak => 1
    }
  }

  function ESDBindingStrengthFromCode(c: bv8): (r: Option<ESDBindingStrength>)
    ensures forall e: ESDBindingStrength :: e.Code() == c <==> r == Some(e)
  {
    match c
    case 0 => Some(Strong)
    case 1 => Some(Weak)
    case _ => None
  }


  /** When a class is loaded. */
  datatype ESDLoadingBehavior = Initial | Deferred | NoLoad | LbReserved
  {
    function Code(): bv8
    {
      match this
      case Initial => 0
      case Deferred => 1
      case NoLoad => 2
      case LbReserved => 3
    }
  }

  function ESDLoadingBehaviorFromCode(c: bv8): (r: Option<ESDLoadingBehavior>)
    ensures forall e: ESDLoadingBehavior :: e.Code() == c <==> r == Some(e)
  {
    match c
    case 0 => Some(Initial)
    case 1 => Some(Deferred)
    case 2 => Some(NoLoad)
    case 3 => Some(LbReserved)
    case _ => None
  }


  /** The scope in which a symbol binds. */
  datatype ESDBindingScope = ScopeUnspecified | Section | Module | Library | ImportExport
  {
    function Code(): bv8
    {
      match this
      case ScopeUnspecified => 0
      case Section => 1
      case Module => 2
      case Library => 3
      case ImportExport => 4
    }
  }

  function ESDBindingScopeFromCode(c: bv8): (r: Option<ESDBindingScope>)
    ensures forall e: ESDBindingScope :: e.Code() == c <==> r == Some(e)
  {
    match c
    case 0 => Some(ScopeUnspecified)
    case 1 => Some(Section)
    case 2 => Some(Module)
    case 3 => Some(Library)
    case 4 => Some(ImportExport)
    case _ => None
  }


  /** The linkage convention. */
  datatype ESDLinkageType = OS | XPLink
  {
    function Code(): bv8
    {
      match this
      case OS => 0
      case XPLink => 1
    }
  }

  function ESDLinkageTypeFromCode(c: bv8): (r: Option<ESDLinkageType>)
    ensures forall e: ESDLinkageType :: e.Code() == c <==> r == Some(e)
  {
    match c
    case 0 => Some(OS)
    case 1 => Some(XPLink)
    case _ => None
  }


  /** Alignment, as a power of two of bytes (the two page values aside). */
  datatype ESDAlignment = Byte | Halfword | Fullword | Doubleword | Quadword | Align32Byte | Align64Byte | Align128Byte | Align256Byte | Align512Byte | Align1024Byte | Page2K | Page4K
  {
    function Code(): bv8
    {
      match this
      case Byte => 0
      case Halfword => 1
      case Fullword => 2
      case Doubleword => 3
      case Quadword => 4
      case Align32Byte => 5
      case Align64Byte => 6
      case Align128Byte => 7
      case Align256Byte => 8
      case Align512Byte => 9
      case Align1024Byte => 10
      case Page2K => 11
      case Page4K => 12
    }
  }

  function ESDAlignmentFromCode(c: bv8): (r: Option<ESDAlignment>)
    ensures forall e: ESDAlignment :: e.Code() == c <==> r == Some(e)
  {
    match c
    case 0 => Some(Byte)
    case 1 => Some(Halfword)
    case 2 => Some(Fullword)
    case 3 => Some(Doubleword)
    case 4 => Some(Quadword)
    case 5 => Some(Align32Byte)
    case 6 => Some(Align64Byte)
    case 7 => Some(Align128Byte)
    case 8 => Some(Align256Byte)
    case 9 => Some(Align512Byte)
    case 10 => Some(Align1024Byte)
    case 11 => Some(Page2K)
    case 12 => Some(Page4K)
    case _ => None
  }


  /** How an END record names the entry point. */
  datatype ENDEntryPointRequest = EprNone | EsdidOffset | ExternalName | EprReserved
  {
    function Code(): bv8
    {
      match this
      case EprNone => 0
      case EsdidOffset => 1
      case ExternalName => 2
      case EprReserved => 3
    }
  }

  function ENDEntryPointRequestFromCode(c: bv8): (r: Option<ENDEntryPointRequest>)
    ensures forall e: ENDEntryPointRequest :: e.Code() == c <==> r == Some(e)
  {
    match c
    case 0 => Some(EprNone)
    case 1 => Some(EsdidOffset)
    case 2 => Some(ExternalName)
    case 3 => Some(EprReserved)
    case _ => None
  }


  /** Subsections of the primary code section. */
  datatype SubsectionKind = PPA1 | PPA2
  {
    function Code(): bv8
    {
      match this
      case PPA1 => 2
      case PPA2 => 4
    }
  }

  function SubsectionKindFromCode(c: bv8): (r: Option<SubsectionKind>)
    ensures forall e: SubsectionKind :: e.Code() == c <==> r == Some(e)
  {
    match c
    case 2 => Some(PPA1)
    case 4 => Some(PPA2)
    case _ => None
  }

}

=== FILE: goff_flags.dfy ===
/**
 * `GOFF::Flags`: one byte whose sub-byte fields are written and read by bit
 * index and length, bit 0 being the high-order bit.
 */
module GoffFlags {
  import opened GoffBits

  /** The byte `Val`; `Flags()` leaves it zero. */
  datatype Flags = Flags(val: bv8)
  {
    /**
     * `Flags::get`: shift the field down and keep its `length` low bits. The
     * result always fits the field, and its bits are the field's bits of the
     * byte, in order.
     */
    function Get(f: BitField): (r: bv8)
      requires f.Valid()
      ensures Fits(r, f.length)
      ensures forall b: bv8 :: b < 8 && f.Covers(b) ==> BitAt(r, b + Shift(f)) == BitAt(val, b)
    {
      ExtractedByBit(val, f);
      ExtractedFits(val, f);
      Extracted(val, f)
    }

    /**
     * `Flags::set`, on the value after `static_cast<uint8_t>`. A value that
     * fits is read back by `Get` and no bit outside the field changes; an
     * oversize value still fills the field with its low bits and leaves the
     * bits after the field alone.
     */
    function Set(f: BitField, value: bv8): (r: Flags)
      requires f.Valid()
      ensures Fits(value, f.length) ==> r.Get(f) == value
      ensures Fits(value, f.length) ==> KeepsBitsOutside(f, r.val, val)
      ensures HoldsValue(f, r.val, value)
      ensures KeepsBitsAfter(f, r.val, val)
    {
      ExtractPacked(val, f, value);
      Flags(Bits(f, value, val))
    }

    /** `set<bool>`: `static_cast<uint8_t>` turns `false`/`true` into 0/1. */
    function SetFlag(f: BitField, b: bool): (r: Flags)
      requires f.Valid() && 1 <= f.length
      ensures r.GetFlag(f) == b
      ensures KeepsBitsOutside(f, r.val, val)
    {
      OneFits(f.length);
      Set(f, BoolCode(b))
    }

    /** `get<bool>`: the field reads as `true` exactly when one of its bits
        is set; for a one-bit field, when that bit is set. */
    function GetFlag(f: BitField): (r: bool)
      requires f.Valid()
      ensures r <==> (val & Mask(f)) != 0
      ensures f.length == 1 ==> (r <==> BitAt(val, f.bitIndex))
    {
      ExtractedNonZero(val, f);
      if f.length == 1 then ExtractedFlagBit(val, f); Extracted(val, f) != 0
      else Extracted(val, f) != 0
    }

    /** `operator uint8_t`. */
    function ToByte(): bv8
    {
      val
    }
  }

  /** A default-constructed `Flags`. */
  const Zero: Flags := Flags(0)

  /** The value `static_cast<uint8_t>` gives a `bool`. */
  function BoolCode(b: bool): bv8
  {
    if b then 1 else 0
  }

  /**
   * The constructor `Flags(BitIndex, Length, Value)`: packing into a zero
   * byte, which is setting the field of a default `Flags`. When the value
   * fits, it is read back and every other bit is zero.
   */
  function Make(f: BitField, value: bv8): (r: Flags)
    requires f.Valid()
    ensures r == Zero.Set(f, value)
    ensures Fits(value, f.length) ==> r.Get(f) == value
    ensures Fits(value, f.length) ==> forall b: bv8 :: b < 8 && !f.Covers(b) ==> !BitAt(r.val, b)
  {
    var r := Flags(Bits(f, value, 0));
    ZeroHasNoBits();
    r
  }

  lemma ExtractedFits(x: bv8, f: BitField)
    requires f.Valid()
    ensures Fits(Extracted(x, f), f.length)
  {}

  lemma OneFits(length: bv8)
    requires 1 <= length <= 8
    ensures Fits(0, length) && Fits(1, length)
  {}

  lemma ZeroHasNoBits()
    ensures forall b: bv8 :: b < 8 ==> !BitAt(0, b)
  {}

  /** Setting a field twice: only the last value is observable, provided the
      first one fit (an oversize first value leaves bits before the field). */
  lemma SetTwice(x: Flags, f: BitField, first: bv8, second: bv8)
    requires f.Valid() && Fits(first, f.length)
    ensures x.Set(f, first).Set(f, second) == x.Set(f, second)
  {
    PackTwice(x.val, f, first, second);
  }

  /** A zero-length field: at bit index 0 the shifted value is truncated to
      0 and nothing is written; at bit index 3 a `true` sets bit 2, the bit
      just before the field. */
  lemma ZeroLengthFlag()
    ensures Zero.Set(BitField(0, 0), 1) == Zero
    ensures Zero.Set(BitField(3, 0), 1).ToByte() == 0x20 && BitAt(0x20, 2)
  {}

  /** An oversize value is not masked: with a field of one bit at index 7,
      writing 3 also sets bit 6, and reading the field back gives 1. */
  lemma OversizeValueSpills()
    ensures Zero.Set(BitField(7, 1), 3).ToByte() == 0x03
    ensures Zero.Set(BitField(7, 1), 3).Get(BitField(7, 1)) == 1
  {}

  /** Bit 0 is the high-order bit and bit 7 the low-order one. */
  lemma BitZeroIsHighOrder()
    ensures Make(BitField(0, 1), 1).ToByte() == 0x80
    ensures Make(BitField(7, 1), 1).ToByte() == 0x01
    ensures Make(BitField(5, 3), 5).ToByte() == 0x05
    ensures Zero.ToByte() == 0
  {}
}

=== FILE: goff_symbol_flags.dfy ===
/**
 * `GOFF::SymbolFlags`: the flag byte of an external symbol definition, whose
 * accessors `GOFF_SYMBOL_FLAG` generates from a table of (name, type, bit
 * index, length). Bit 4 belongs to no field.
 */
module GoffSymbolFlags {
  import opened Wrappers
  import opened GoffBits
  import opened GoffFlags
  import opened GoffEnums

  /** The rows of the `GOFF_SYMBOL_FLAG` table. */
  datatype SymbolField = FillBytePresence | Mangled | Renameable | RemovableClass | ReservedQwords
  {
    /** Where the field lies in the byte; every field is non-empty and
        inside the byte. */
    function Field(): (f: BitField)
      ensures f.Valid() && 1 <= f.length
    {
      match this
      case FillBytePresence => BitField(0, 1)
      case Mangled => BitField(1, 1)
      case Renameable => BitField(2, 1)
      case RemovableClass => BitField(3, 1)
      case ReservedQwords => BitField(5, 3)
    }

    /** The field's C++ type is `bool`. */
    predicate IsFlag()
    {
      this != ReservedQwords
    }
  }

  datatype SymbolFlags = SymbolFlags(symFlags: Flags)
  {
    /** `get##NAME`, before the cast to the field's type. */
    function Get(k: SymbolField): (r: bv8)
      ensures Fits(r, k.Field().length)
    {
      symFlags.Get(k.Field())
    }

    /**
     * `set##NAME`, on the value after `static_cast<uint8_t>`. A value that
     * fits is read back, every other field reads as before, and bit 4 keeps
     * its value.
     */
    function Set(k: SymbolField, value: bv8): (r: SymbolFlags)
      ensures Fits(value, k.Field().length) ==> r.Get(k) == value
      ensures Fits(value, k.Field().length) ==>
                forall k2: SymbolField :: k2 != k ==> r.Get(k2) == Get(k2)
      ensures Fits(value, k.Field().length) ==> BitAt(r.ToByte(), 4) == BitAt(ToByte(), 4)
    {
      SetKeepsOtherFields(symFlags.val, k, value);
      SymbolFlags(symFlags.Set(k.Field(), value))
    }

    /** `set##NAME` for the `bool` fields. */
    function SetFlag(k: SymbolField, b: bool): (r: SymbolFlags)
      requires k.IsFlag()
      ensures r.GetFlag(k) == b
      ensures forall k2: SymbolField :: k2 != k ==> r.Get(k2) == Get(k2)
      ensures BitAt(r.ToByte(), 4) == BitAt(ToByte(), 4)
    {
      OneFits(k.Field().length);
      Set(k, BoolCode(b))
    }

    /** `get##NAME` for the `bool` fields: `true` exactly when the field's
        one bit is set in the byte. */
    function GetFlag(k: SymbolField): (r: bool)
      requires k.IsFlag()
      ensures r <==> BitAt(ToByte(), k.Field().bitIndex)
    {
      symFlags.GetFlag(k.Field())
    }

    /** `setReservedQwords`, which stores the enumerator's value. */
    function SetReservedQwords(q: ESDReserveQwords): (r: SymbolFlags)
      ensures r.GetReservedQwords() == Some(q)
      ensures forall k2: SymbolField :: k2 != ReservedQwords ==> r.Get(k2) == Get(k2)
      ensures BitAt(r.ToByte(), 4) == BitAt(ToByte(), 4)
    {
      Set(ReservedQwords, q.Code())
    }

    /** `getReservedQwords`: the three bits as an `ESDReserveQwords`; the
        values 4 to 7 name no enumerator. */
    function GetReservedQwords(): (r: Option<ESDReserveQwords>)
      ensures r.Some? <==> Get(ReservedQwords) <= 3
      ensures forall e: ESDReserveQwords :: r == Some(e) <==> e.Code() == Get(ReservedQwords)
    {
      ESDReserveQwordsFromCode(Get(ReservedQwords))
    }

    /** `operator uint8_t`. */
    function ToByte(): bv8
    {
      symFlags.ToByte()
    }
  }

  /** The fields are pairwise disjoint and none covers bit 4. */
  lemma SymbolLayout()
    ensures forall k1: SymbolField, k2: SymbolField :: k1 != k2 ==> k1.Field().DisjointFrom(k2.Field())
    ensures forall k: SymbolField :: !k.Field().Covers(4)
  {}

  lemma SetKeepsOtherFields(x: bv8, k: SymbolField, value: bv8)
    ensures Fits(value, k.Field().length) ==> forall k2: SymbolField :: k2 != k ==>
              Flags(x).Set(k.Field(), value).Get(k2.Field()) == Flags(x).Get(k2.Field())
  {
    if Fits(value, k.Field().length) {
      forall k2: SymbolField | k2 != k
        ensures Flags(x).Set(k.Field(), value).Get(k2.Field()) == Flags(x).Get(k2.Field())
      {
        SetKeepsOtherField(x, k, value, k2);
      }
    }
  }

  /** Setting one field with a value that fits leaves another field's bits,
      and hence its reading, unchanged. */
  lemma SetKeepsOtherField(x: bv8, k: SymbolField, value: bv8, k2: SymbolField)
    requires k != k2 && Fits(value, k.Field().length)
    ensures Flags(x).Set(k.Field(), value).Get(k2.Field()) == Flags(x).Get(k2.Field())
  {
    match k
    case FillBytePresence => OtherFieldOfBit0(x, value, k2);
    case Mangled => OtherFieldOfBit1(x, value, k2);
    case Renameable => OtherFieldOfBit2(x, value, k2);
    case RemovableClass => OtherFieldOfBit3(x, value, k2);
    case ReservedQwords => OtherFieldOfQwords(x, value, k2);
  }

  lemma OtherFieldOfBit0(x: bv8, value: bv8, k2: SymbolField)
    requires k2 != FillBytePresence && value <= 1
    ensures Extracted(Packed(BitField(0, 1), value, x), k2.Field()) == Extracted(x, k2.Field())
  {}

  lemma OtherFieldOfBit1(x: bv8, value: bv8, k2: SymbolField)
    requires k2 != Mangled && value <= 1
    ensures Extracted(Packed(BitField(1, 1), value, x), k2.Field()) == Extracted(x, k2.Field())
  {}

  lemma OtherFieldOfBit2(x: bv8, value: bv8, k2: SymbolField)
    requires k2 != Renameable && value <= 1
    ensures Extracted(Packed(BitField(2, 1), value, x), k2.Field()) == Extracted(x, k2.Field())
  {}

  lemma OtherFieldOfBit3(x: bv8, value: bv8, k2: SymbolField)
    requires k2 != RemovableClass && value <= 1
    ensures Extracted(Packed(BitField(3, 1), value, x), k2.Field()) == Extracted(x, k2.Field())
  {}

  lemma OtherFieldOfQwords(x: bv8, value: bv8, k2: SymbolField)
    requires k2 != ReservedQwords && value <= 7
    ensures Extracted(Packed(BitField(5, 3), value, x), k2.Field()) == Extracted(x, k2.Field())
  {}

  /** An oversize reserved-quadword count is not masked: 8 lands in bit 4. */
  lemma OversizeQwordsReachBit4()
    ensures BitAt(SymbolFlags(Zero).Set(ReservedQwords, 8).ToByte(), 4)
  {}
}

=== FILE: wrappers.dfy ===
/** The optional value used wherever a lookup or a decoding can fail. */
module Wrappers {
  datatype Option<T> = None | Some(value: T)
}
